=== FILE: README.md ===
# Moongazers window engine, in Dafny

This project models the computational core of the Moongazers stargazing planner. It has three parts.

- **The best-windows endpoint.** A free-text location and hourly forecast data become at most three ranked observation windows. The model covers:
  - the envelope unwrap and falsy defaults;
  - the night filter and per-hour score;
  - grouping of good hours into windows, and ranking;
  - the moon helpers and the fallback sky snapshot;
  - the per-window averages and midpoint;
  - the US ZIP test;
  - the request handler's control flow, with every outbound call replaced by its outcome.
- **The weather preferences context.** Temperature unit and clock format, their toggles, loading saved values, and temperature conversion and formatting.
- **Public-id extraction.** The public id of an image, read from its media URL.

Numbers are exact `real`s. `Math.round(x)` is `(x + 0.5).Floor`, characterised by `r <= x + 0.5 < r + 1`. Instants are integer milliseconds. The local hour of an instant, which depends on the server's time zone, is an input function `hourOf`.

| file | module | what |
|---|---|---|
| wrappers.dfy | Wrappers | `Option`, `Result` |
| numeric.dfy | Numeric | `Round`, `Max0`, `Min`, `Max`, `Abs`, truncating halving, `Sum`, `Mean` and their bounds |
| seqs.dfy | Seqs | subsequences, `Filter` and its counts, `Take` |
| text.dfy | Text | ASCII digits |
| scoring.dfy | Scoring | `scoreTimeSlot`, `getMoonImpact`, `getMoonPhaseName` |
| forecast.dfy | Forecast | envelope unwrap, reading the hourly arrays, falsy defaults, night filter, bulk scoring pass |
| grouping.dfy | Grouping | `groupTimeWindows`: good-slot filter, run grouping, windows, stable ranking, top three |
| sky.dfy | Sky | fallback sky snapshot: illumination, phase name, placeholder planets and altitude, bright stars |
| enrich.dfy | Enrich | midpoint, lookup instant, averaged weather, moon summary |
| zip.dfy | Zip | `trim` and the US ZIP pattern |
| pipeline.dfy | BestWindows | the `POST` handler as a function of the outside world's answers |
| weather_prefs.dfy | WeatherPrefs | toggles, preference loading, `convertTemperature`, `formatTemperature` |
| public_id.dfy | PublicId | `extractPublicIdFromUrl`, with a scanner and a declarative match shape |

Behaviour of the code that the model keeps as it is:

- The time-zone fallback is the constant `America/Chicago`. It is used when the lookup fails or returns no zone name.
- The US ZIP test is the only classification of the location text. It decides only whether the Census geocoder is retried with `, USA` appended.
- `!location` refuses only a missing or empty location. A whitespace-only location passes the check.
- A missing cloud-cover value, and also a real 0, become 0% cloud, which scores as clear sky. A real 0 °F or 0 mph likewise becomes 70 or 5.
- An `hourly` value that is `null` or has no `time` array throws a `TypeError` inside the `try` block. So does one missing another array while there is at least one hour. Both end in the generic 500.
- When the forecast came from Open-Meteo, the astronomy provider is never asked for sky data. The fallback snapshot is used directly.
- The moon penalty is inert in the bulk pass, which passes the placeholder inputs `(0, false)`.
- The fallback snapshot uses the phase angle, in degrees, as a fraction (see "Findings"). `BestWindows.Post` takes a `PhaseReading`: `AsWritten` is the code as it stands, and `Corrected` divides the angle by 360 first.

## Model

| member | source | states |
|---|---|---|
| Numeric.Round | src/app/api/best-windows/route.ts:438-440 | `Math.round`: the result is the unique integer `r` with `r <= x + 1/2 < r + 1` |
| Numeric.MeanBounds | src/app/api/best-windows/route.ts:307 | if every value lies in `[lo, hi]`, so does the arithmetic mean |
| Scoring.PenaltyFor | src/app/api/best-windows/route.ts:279-281 | the deduction is 0.2 exactly when the moon is visible with illumination at least 60, and 0 otherwise |
| Scoring.ScoreTimeSlot | src/app/api/best-windows/route.ts:275-284 | the score is never negative and at most 1 when cloud cover is non-negative; it is 0 or exactly `1 - cc/100 - penalty`, and never below that value |
| Scoring.ScoreMonotoneInCloud | src/app/api/best-windows/route.ts:275-284 | with the moon inputs fixed, more cloud never raises the score |
| Scoring.MoonNeverHelps | src/app/api/best-windows/route.ts:278-281 | any moon input scores no higher than the moonless placeholder |
| Scoring.BaseScore | src/app/api/best-windows/route.ts:406 | the bulk pass's score is `max(0, 1 - cc/100)`, because the placeholder inputs never trigger the penalty |
| Scoring.BaseScoreGoodIff | src/app/api/best-windows/route.ts:287 | with placeholder moon inputs an hour reaches the 0.6 threshold exactly when its cloud cover is at most 40 |
| Scoring.MoonImpact | src/app/api/best-windows/route.ts:269-273 | Low iff not visible or illumination below 30; Medium iff visible and 30 to below 60; High iff visible and at least 60 |
| Scoring.MoonImpactMonotone | src/app/api/best-windows/route.ts:269-273 | a brighter visible moon never has a lower impact |
| Scoring.PenaltyIffHighImpact | src/app/api/best-windows/route.ts:269-281 | the score penalty applies exactly when the impact is High |
| Scoring.PhaseBucket | src/app/api/best-windows/route.ts:258-267 | every phase falls in one of the eight buckets, between that bucket's boundaries |
| Scoring.MoonPhaseName | src/app/api/best-windows/route.ts:258-267 | the name is one of the eight phase names, namely the name of the bucket the phase falls in |
| Scoring.BucketsDisjoint | src/app/api/best-windows/route.ts:258-267 | no phase lies in two buckets |
| Scoring.BoundariesAreOddSixteenths | src/app/api/best-windows/route.ts:259-265 | the boundaries are 1/16, 3/16, …, 13/16 |
| Scoring.PhaseBucketMonotone | src/app/api/best-windows/route.ts:258-267 | the bucket index never decreases as the phase increases |
| Scoring.PhaseNameIdentifiesBucket | src/app/api/best-windows/route.ts:258-267 | the phase name is the bucket's name, and distinct buckets have distinct names |
| Forecast.Unwrap | src/app/api/best-windows/route.ts:376-393 | a flat `hourly` key wins, even when its value is `null`; otherwise a nested `data.hourly` is used; otherwise the error is "Invalid forecast data structure" |
| Forecast.UnwrapShapeIndependent | src/app/api/best-windows/route.ts:387-390 | the same hourly value is used whichever envelope carries it |
| Forecast.ReadArrays | src/app/api/best-windows/route.ts:395-399 | the arrays are read exactly when the value is an object with `time`, and, if there is at least one hour, with the three value arrays too; otherwise the read throws |
| Forecast.ReadArraysComplete | src/app/api/best-windows/route.ts:395-399 | an object carrying all four arrays reads back as exactly those arrays |
| Forecast.MissingArrayThrows | src/app/api/best-windows/route.ts:395-399 | a `null` value or a missing `time` always throws; a missing cloud array throws exactly when there is an hour |
| Forecast.OrDefault | src/app/api/best-windows/route.ts:397-399 | `v \|\| d`: an absent or zero value becomes the default, and any other value is kept |
| Forecast.SlotAt | src/app/api/best-windows/route.ts:396-415 | a slot carries the hour's time, the cloud, temperature and wind with defaults 0, 70 and 5, and the placeholder score |
| Forecast.ScanFrom | src/app/api/best-windows/route.ts:395-417 | the emitted slots are, in order, a subsequence of all hours from `i`; each is a night hour with the placeholder score; each night-hour slot occurs as often as among the hours, and no other slot occurs |
| Forecast.BulkPass | src/app/api/best-windows/route.ts:395-417 | the output is a subsequence of the slots of all hours; it holds only night hours (21 and after, or 6 and before), each as often as it occurs among the hours; each is good exactly when its cloud cover is at most 40 |
| Forecast.ScanFromChronological | src/app/api/best-windows/route.ts:395-417 | on a chronological forecast the emitted slots are strictly chronological and no earlier than the starting hour |
| Forecast.BulkPassChronological | src/app/api/best-windows/route.ts:395-417 | on a chronological forecast the bulk pass output is strictly chronological |
| Forecast.SubsequenceChronological | src/app/api/best-windows/route.ts:395-417 | a subsequence of a chronological run of slots is chronological and starts no earlier |
| Forecast.ScanFromIsFilter | src/app/api/best-windows/route.ts:395-417 | the scan from `i` is `filter` by the night test over the slots from `i` |
| Forecast.BulkPassIsFilter | src/app/api/best-windows/route.ts:395-417 | the bulk pass is `filter` by the night test over the slot every hour would yield |
| Forecast.ClearSkyAllPerfect | src/app/api/best-windows/route.ts:395-417 | with 0% cloud everywhere, every night slot scores exactly 1 |
| Grouping.GoodSlots | src/app/api/best-windows/route.ts:287 | the good slots are a subsequence of the slots, each slot scoring at least 0.6 occurring as often as in the input and no other slot occurring |
| Grouping.Groups | src/app/api/best-windows/route.ts:290-333 | the runs laid end to end are exactly the good slots in input order; each run is non-empty with gaps of at most 2 h, and consecutive runs are more than 2 h apart |
| Grouping.GroupLoopSpec | src/app/api/best-windows/route.ts:292-319 | the loop invariant: finished runs, the open run and the unread slots lay out the input, and the runs stay well formed |
| Grouping.GroupLoopKeepsClosed | src/app/api/best-windows/route.ts:292-319 | the loop `GroupLoop` never reopens a finished run: the runs closed so far stay in front, a non-empty open run or input adds at least one run, and there are never more new runs than slots |
| Grouping.WellGroupedMeans | src/app/api/best-windows/route.ts:296-317 | in a well-formed grouping every run is chained, and every boundary is a gap of more than 2 h |
| Grouping.MakeWindow | src/app/api/best-windows/route.ts:304-314 | a finalized run keeps its slots, starts at its first slot, ends 1 h after its last, and scores the mean of its slots' scores |
| Grouping.MakeWindowValidIff | src/app/api/best-windows/route.ts:304-314 | a finalized run is a valid window exactly when it has at least 2 slots, all scoring at least 0.6, each within 2 h of the one before |
| Grouping.CloseWindows | src/app/api/best-windows/route.ts:304-333 | every window is built from a run of at least 2 slots, and every such run has a window |
| Grouping.CloseWindowsPerLongRun | src/app/api/best-windows/route.ts:304-333 | one window per run of at least 2 slots, in run order: the `k`-th window is built from the `k`-th such run |
| Grouping.CandidatesValid | src/app/api/best-windows/route.ts:292-333 | every window has at least 2 slots scoring at least 0.6, gaps of at most 2 h, starts at its first slot, ends 1 h after its last, and scores the mean of its slots |
| Grouping.InsertDesc | src/app/api/best-windows/route.ts:335 | insertion adds exactly the one window |
| Grouping.InsertDescSorted | src/app/api/best-windows/route.ts:335 | insertion into a descending sequence keeps it descending |
| Grouping.SortDesc | src/app/api/best-windows/route.ts:335 | the sort is a permutation, and the result is sorted by mean score, highest first |
| Grouping.InsertKeepsTies | src/app/api/best-windows/route.ts:335 | insertion never reorders windows of equal score |
| Grouping.SortStable | src/app/api/best-windows/route.ts:335 | the sort is stable: for each score, the windows with that score keep their input order |
| Grouping.TakeIsTop | src/app/api/best-windows/route.ts:335 | each kept window scores at least as high as every window cut off |
| Grouping.GroupTimeWindows | src/app/api/best-windows/route.ts:286-336 | the result has `min(3, candidates)` windows. All are valid candidates, none taken more often than it occurs. They are sorted highest first, and no dropped candidate beats a kept one. Among equal scores, the earliest candidates are kept |
| Grouping.RankedFromCandidates | src/app/api/best-windows/route.ts:335 | the first three of the stably sorted candidates have exactly the ranking properties stated for `GroupTimeWindows` |
| Grouping.TakeFirstTies | src/app/api/best-windows/route.ts:335 | for each score, the kept windows of that score are the first windows of that score among the candidates |
| Grouping.PrefixWithScore | src/app/api/best-windows/route.ts:335 | cutting a sequence short keeps, for each score, a prefix of the windows with that score |
| Sky.Illumination | src/app/api/best-windows/route.ts:208 | illumination lies in `[0, 100]` for a phase in `[0, 1]` |
| Sky.IlluminationExtremes | src/app/api/best-windows/route.ts:208 | new moon is 0, full moon is 100 |
| Sky.IlluminationSymmetric | src/app/api/best-windows/route.ts:208 | phases equally far from full are equally lit |
| Sky.IlluminationWaxing | src/app/api/best-windows/route.ts:208 | illumination never decreases from new to full |
| Sky.FallbackStars | src/app/api/best-windows/route.ts:215-218 | the stars are the first `min(5, bright)` stars of magnitude at most 2.0, in catalog order |
| Sky.FallbackSky | src/app/api/best-windows/route.ts:203-228 | the snapshot has the phase name and illumination of the phase, altitude 45, the placeholder planets, and the names of the fallback stars in order |
| Sky.FullMoonInDegreesMisread | src/app/api/best-windows/route.ts:207-208 | a full moon given as 180 degrees is reported as illumination -35800 and "Waning Crescent" |
| Sky.PhaseFraction | src/app/api/best-windows/route.ts:207 | an angle in `[0, 360)` becomes a fraction in `[0, 1)` |
| Sky.FallbackSkyFromDegrees | src/app/api/best-windows/route.ts:207-208 | once the angle is converted, illumination lies in `[0, 100]` for every angle in `[0, 360)` |
| Sky.PhaseAnglesCorrected | src/app/api/best-windows/route.ts:207-222 | once the angle is converted, 180 degrees is a 100% Full Moon and 0 degrees a 0% New Moon |
| Enrich.Midpoint | src/app/api/best-windows/route.ts:426 | the lookup midpoint lies between start and end, within half a millisecond of the exact midpoint |
| Enrich.LookupInstant | src/app/api/best-windows/route.ts:427 | dropping the milliseconds gives the whole second at or before the midpoint |
| Enrich.WindowWeather | src/app/api/best-windows/route.ts:438-440 | each reported field is within half a unit of the mean over the window's slots |
| Enrich.WindowCloudInRange | src/app/api/best-windows/route.ts:438 | the averaged cloud cover stays within the rounded range of the slot values |
| Enrich.UniformWindowWeather | src/app/api/best-windows/route.ts:438-440 | a window of identical hours reports those hours' values, rounded |
| Enrich.MoonSummary | src/app/api/best-windows/route.ts:443-447 | the phase is the provider's phase when that is present and non-empty, and "Unknown" exactly when it is absent or empty; illumination is `illumination \|\| 0`; the impact counts the moon as up only when the altitude is positive |
| Enrich.OrEmpty | src/app/api/best-windows/route.ts:462-463 | `xs \|\| []` |
| Enrich.EnrichWindow | src/app/api/best-windows/route.ts:437-464 | the entry has the window's start and end, the weather averaged over its slots, the moon summary of the sky data, and the sky data's planets and stars, or none when absent |
| Enrich.FallbackSummary | src/app/api/best-windows/route.ts:220-225 | the fallback snapshot yields its own phase name and illumination, with the moon counted as up |
| Zip.Trim | src/app/api/best-windows/route.ts:66 | the trimmed text neither starts nor ends with whitespace |
| Zip.IsUsZip | src/app/api/best-windows/route.ts:66 | an accepted location's trimmed text is 5 or 10 characters long and starts with five ASCII digits; a 10-character one continues with a hyphen and four digits |
| Zip.PaddedZipIff | src/app/api/best-windows/route.ts:66 | a location is a ZIP exactly when the text inside its surrounding whitespace has the ZIP shape |
| Zip.TrimIsSlice | src/app/api/best-windows/route.ts:66 | the trimmed text is a slice of the input with only whitespace outside it |
| Zip.PaddingIgnored | src/app/api/best-windows/route.ts:66 | surrounding whitespace does not change the trimmed text |
| Zip.ZipText | src/app/api/best-windows/route.ts:66 | five digits, optionally with a hyphen and four more digits, have ZIP shape |
| Zip.ZipShapeParses | src/app/api/best-windows/route.ts:66 | every string of ZIP shape is the written form of its parts |
| Zip.PlainZipAccepted | src/app/api/best-windows/route.ts:66 | "60540" is a ZIP |
| Zip.PaddedZipPlusFourAccepted | src/app/api/best-windows/route.ts:66 | " 60540-1234\n" is a ZIP |
| Zip.PostcodeRejected | src/app/api/best-windows/route.ts:66 | "SW1A 1AA" is not a ZIP |
| Zip.ShortZipRejected | src/app/api/best-windows/route.ts:66 | "6054" is not a ZIP |
| Zip.TruncatedExtensionRejected | src/app/api/best-windows/route.ts:66 | "60540-123" is not a ZIP |
| BestWindows.ResolveTimezone | src/app/api/best-windows/route.ts:134-145 | the zone is the non-empty zone name returned; otherwise it is "America/Chicago" |
| BestWindows.ChooseForecast | src/app/api/best-windows/route.ts:358-370 | Astrospheric's forecast if it answered, else Open-Meteo's; it fails only when both fail |
| BestWindows.ChooseSky | src/app/api/best-windows/route.ts:429-435 | the provider's sky data only for an Astrospheric forecast whose sky call succeeded; the fallback snapshot otherwise |
| BestWindows.FallbackAt | src/app/api/best-windows/route.ts:203-228 | the fallback snapshot at an instant: with the code's reading the phase name is taken from the raw angle, and with the corrected one from the angle divided by 360, where illumination then lies in `[0, 100]`; both carry the placeholder planets and the fallback stars |
| BestWindows.SkyFor | src/app/api/best-windows/route.ts:426-435 | the sky data for a window is looked up at the whole second of its midpoint: the Astrospheric answer when that provider gave the forecast and its sky call succeeded, the fallback snapshot at that instant otherwise |
| BestWindows.Ranked | src/app/api/best-windows/route.ts:395-420 | the arrays are read, and failure to read them fails the step; otherwise the result is the top windows of the bulk pass |
| BestWindows.EnrichAll | src/app/api/best-windows/route.ts:425-465 | one entry per ranked window, in ranked order: entry `k` has window `k`'s start and end and is built from that window and the sky data looked up for it |
| BestWindows.Post | src/app/api/best-windows/route.ts:338-482 | 400 "Location is required" exactly for a missing or empty location. Among the modelled inputs, 500 "Failed to fetch moongazing data" exactly when geocoding fails, both forecasts fail, the envelope is unrecognised, or reading the hourly arrays throws. In every other case the answer is `Found`: the geocoded name, with the ranked windows of the chosen forecast enriched in ranked order, at most 3 |
| BestWindows.NoClearNightIsNotAnError | src/app/api/best-windows/route.ts:419-473 | when no night hour has cloud cover of 40% or less, the answer is a normal response with no windows |
| BestWindows.ProviderIndependentScoring | src/app/api/best-windows/route.ts:387-420 | the same hourly value ranks identically, or fails identically, whichever provider's envelope carries it |
| BestWindows.ReadingOnlyChangesMoon | src/app/api/best-windows/route.ts:207-208 | the two phase readings fail alike, and otherwise give the same windows with the same times and weather |
| BestWindows.OpenMeteoFullMoonMisreported | src/app/api/best-windows/route.ts:207-208 | on the Open-Meteo path at 180 degrees, the code as written reports a Waning Crescent at -35800 with Low impact; the corrected reading reports a Full Moon at 100 with High impact |
| Seqs.FilterCounts | src/app/api/best-windows/route.ts:287 | `filter` keeps every copy of a kept value and no copy of a dropped one |
| WeatherPrefs.ToggleTemperatureUnit | src/contexts/WeatherContext.tsx:50-52 | the toggle always changes the unit |
| WeatherPrefs.ToggleTemperatureUnitTwice | src/contexts/WeatherContext.tsx:50-52 | toggling twice restores the unit |
| WeatherPrefs.ToggleTimeFormat | src/contexts/WeatherContext.tsx:54-56 | the result is "12hr" or "24hr", and it is "24hr" exactly when the input was "12hr" |
| WeatherPrefs.ToggleTimeFormatTwice | src/contexts/WeatherContext.tsx:54-56 | toggling twice restores the format exactly when it is "12hr" or "24hr" |
| WeatherPrefs.LoadTemperatureUnit | src/contexts/WeatherContext.tsx:21-34 | Fahrenheit exactly when "fahrenheit" was saved; Celsius for anything else, including nothing |
| WeatherPrefs.LoadTimeFormat | src/contexts/WeatherContext.tsx:22-38 | any non-empty saved text is adopted unchecked; otherwise "12hr" |
| WeatherPrefs.ConvertTemperature | src/contexts/WeatherContext.tsx:58-68 | the result is within half a degree of the exact value in the display unit; with equal units it is `round(temp)` |
| WeatherPrefs.FixedPoints | src/contexts/WeatherContext.tsx:58-64 | with the source unit defaulting to Fahrenheit, 32 °F is 0 °C and 212 °F is 100 °C; 0 °C is 32 °F and 100 °C is 212 °F |
| WeatherPrefs.CelsiusRoundTrip | src/contexts/WeatherContext.tsx:58-64 | a whole Celsius temperature converted to Fahrenheit and back is unchanged |
| WeatherPrefs.ConvertMonotone | src/contexts/WeatherContext.tsx:58-68 | a warmer reading never converts to a colder one |
| WeatherPrefs.IntRoundTrip | src/contexts/WeatherContext.tsx:89 | the decimal text of an integer reads back as that integer |
| WeatherPrefs.FormatTemperature | src/contexts/WeatherContext.tsx:86-90 | the text ends in "°C" exactly for a Celsius display and "°F" exactly for a Fahrenheit display |
| WeatherPrefs.FormatTemperatureParses | src/contexts/WeatherContext.tsx:86-90 | the text reads back as exactly the converted number and the display unit |
| PublicId.EndingExtension | src/lib/cloudinary.ts:76 | a reported extension is one of the six, in any letter case, preceded by a dot at the URL's end |
| PublicId.EndingUnique | src/lib/cloudinary.ts:76 | at most one extension can end a URL, so the extension's dot is determined |
| PublicId.DigitRun | src/lib/cloudinary.ts:76 | the measured run is all digits and is followed by a non-digit or the end |
| PublicId.Search | src/lib/cloudinary.ts:76 | the reported match is the leftmost position at which the pattern matches, and no match means none at any position |
| PublicId.ExtractPublicIdFromUrl | src/lib/cloudinary.ts:74-81 | a returned id is non-empty and has no line terminator |
| PublicId.ExtractSound | src/lib/cloudinary.ts:76-77 | a returned id is the group of a genuine match: `/v`, digits, `/`, the id, a dot, a dot-free image extension, end |
| PublicId.ExtractComplete | src/lib/cloudinary.ts:76-77 | every URL of that shape yields an id; the match used starts no later, and a match starting there gives exactly that id |
| PublicId.NoExtensionNoId | src/lib/cloudinary.ts:76-77 | a URL not ending in an image extension yields null |
| PublicId.GreedyIdExample | src/lib/cloudinary.ts:76-77 | "/v12/sky/moon.night.JPG" yields "sky/moon.night": the id runs to the last dot |

## Left out

- Outbound HTTP is not modelled; each call is replaced by its outcome, an input of `BestWindows.Post`. This covers the Census and Nominatim geocoding chain, TimeZoneDB, the Astrospheric and Open-Meteo fetches, and their timeouts. Their internals are network plumbing.
- `unstable_cache` and its TTLs are not modelled. They are framework caching and do not change results.
- The geocoders' display-name construction is not modelled. It depends on provider responses; the geocoded name is an input.
- Date parsing is not modelled. Forecast times arrive as integer milliseconds. An unparseable time, which would make `getHours()` NaN and drop the hour, is not modelled.
- The sky lookup string is read back as local time by `new Date(dateTime)` in the fallback. The model takes the lookup instant as the UTC second it names, because the offset depends on the server's time zone.
- `astronomy.MoonPhase` is a foreign library. Its angle is the input `moonPhaseDegrees`.
- Reading and parsing the bright-star CSV is not modelled; the catalog is an input. Rows with missing columns and NaN magnitudes are not represented.
- Luxon's `start` and `end` labels are not modelled. Entries keep the instants they are formatted from.
- `formatTime` is not modelled. It uses locale-specific `toLocaleTimeString`.
- Writing preferences to localStorage is not modelled, because it is I/O. Loading takes the saved values as inputs.
- Floating point is not modelled; numbers are exact reals. Rounding of `5/9`, and `${n}` formatting of integers at 1e21 and above, are therefore not represented.
- Non-string JSON values are not modelled: a non-string `location`, and non-string `url` arguments, which would make `url.match` throw and yield null. Likewise an hourly `time` or value array that is present but is not an array. The same holds for the fields of a sky answer. The handler reads them untyped at lines 444-446 and 462-463. A numeric `phase` would be passed through, a string `illumination` would reach `getMoonImpact` as it is, and a non-array `planets` or `stars` would be copied into the entry. `MoonReport` and `SkyReport` give the phase as a string, illumination and altitude as numbers, and planets and stars as lists of strings, so none of these is represented.
- A time-zone request that fails at the network level, and a fallback sky computation that fails while reading the catalog, are not modelled. Both end in the generic 500. The model treats each as answered.
- BestWindows.Post: three further routes to the generic 500 are outside the model's inputs. A body that is not JSON makes `request.json()` throw (line 340), and so does a JSON `null` body when `location` is destructured from it. An Astrospheric sky call that answers JSON `null` makes `(skyData as any).moon` throw (line 444), because the sky response is returned unchecked (line 183). The location is an optional string and a sky answer is always an object, so none of these is represented.
- WeatherPrefs.ConvertTemperature: the final `return Math.round(temp)` (line 67) is unreachable with two units, and it has no separate member.

## Findings

| source | as written | input that shows it | evidently intended | confidence | as-written member | corrected member |
|---|---|---|---|---|---|---|
| src/app/api/best-windows/route.ts:207-208 | `astronomy.MoonPhase(date)` returns the Moon's phase angle in degrees, in `[0, 360)`. That angle is used directly as a fraction in `[0, 1]` for illumination and for the phase name. | A full moon, angle 180: illumination `round(100 * (1 - 179.5 * 2))` = -35800, name "Waning Crescent" | divide the angle by 360 first, giving illumination 100 and "Full Moon", with illumination in `[0, 100]` for every angle | not executed; high, since astronomy-engine documents `MoonPhase` as returning degrees | Sky.FullMoonInDegreesMisread | Sky.FallbackSkyFromDegrees |

=== FILE: enrich.dfy ===
/** The per-window step of the request: the sky lookup instant, averaged
    weather, and the moon summary read from whichever sky response was used. */
module Enrich {
  import opened Wrappers
  import opened Numeric
  import opened Scoring
  import opened Forecast
  import opened Grouping
  import opened Sky

  datatype Weather = Weather(cloud: int, temp: int, wind: int)

  datatype MoonData = MoonData(phase: string, illum: real, impact: Impact)

  /** One entry of the response. The start and end labels are kept as the
      instants they are formatted from. */
  datatype ScoredWindow = ScoredWindow(
    start: int,
    end: int,
    weather: Weather,
    moon: MoonData,
    planets: seq<string>,
    stars: seq<string>)

  const UnknownPhase: string := "Unknown"

  /** `new Date((start + end) / 2)`: the midpoint, truncated toward zero to a whole millisecond. */
  function Midpoint(w: GroupedWindow): (m: int)
    ensures Min(w.startTime, w.endTime) <= m <= Max(w.startTime, w.endTime)
    ensures -1 <= 2 * m - (w.startTime + w.endTime) <= 1
  {
    HalfTowardZero(w.startTime + w.endTime)
  }

  /** The instant named by `toISOString().slice(0, 19)`: the midpoint with
      its milliseconds dropped. */
  function LookupInstant(m: int): (t: int)
    ensures t <= m < t + 1000
    ensures t % 1000 == 0
  {
    m - m % 1000
  }

  function Clouds(g: seq<TimeSlot>): (r: seq<real>)
    ensures |r| == |g| && forall k :: 0 <= k < |g| ==> r[k] == g[k].cloudCover
  {
    seq(|g|, k requires 0 <= k < |g| => g[k].cloudCover)
  }

  function Temperatures(g: seq<TimeSlot>): (r: seq<real>)
    ensures |r| == |g| && forall k :: 0 <= k < |g| ==> r[k] == g[k].temperature
  {
    seq(|g|, k requires 0 <= k < |g| => g[k].temperature)
  }

  function WindSpeeds(g: seq<TimeSlot>): (r: seq<real>)
    ensures |r| == |g| && forall k :: 0 <= k < |g| ==> r[k] == g[k].windSpeed
  {
    seq(|g|, k requires 0 <= k < |g| => g[k].windSpeed)
  }

  /** The window's weather: each field is the rounded mean over its slots. */
  function WindowWeather(g: seq<TimeSlot>): (w: Weather)
    requires |g| > 0
    ensures w.cloud as real - 0.5 <= Mean(Clouds(g)) < w.cloud as real + 0.5
    ensures w.temp as real - 0.5 <= Mean(Temperatures(g)) < w.temp as real + 0.5
    ensures w.wind as real - 0.5 <= Mean(WindSpeeds(g)) < w.wind as real + 0.5
  {
    Weather(Round(Mean(Clouds(g))), Round(Mean(Temperatures(g))), Round(Mean(WindSpeeds(g))))
  }

  /** An averaged field never leaves the rounded range of the slot values:
      if every slot's cloud cover lies in `[lo, hi]`, so does the window's, after rounding. */
  lemma WindowCloudInRange(g: seq<TimeSlot>, lo: real, hi: real)
    requires |g| > 0
    requires forall k :: 0 <= k < |g| ==> lo <= g[k].cloudCover <= hi
    ensures Round(lo) <= WindowWeather(g).cloud <= Round(hi)
  {
    MeanBounds(Clouds(g), lo, hi);
    RoundMonotone(lo, Mean(Clouds(g)));
    RoundMonotone(Mean(Clouds(g)), hi);
  }

  /** A window whose every hour reports the same cloud cover, temperature
      and wind reports those values, rounded. */
  lemma {:induction false} UniformWindowWeather(g: seq<TimeSlot>, c: real, t: real, v: real)
    requires |g| > 0
    requires forall k :: 0 <= k < |g| ==> g[k].cloudCover == c && g[k].temperature == t && g[k].windSpeed == v
    ensures WindowWeather(g) == Weather(Round(c), Round(t), Round(v))
  {
    MeanBounds(Clouds(g), c, c);
    MeanBounds(Temperatures(g), t, t);
    MeanBounds(WindSpeeds(g), v, v);
  }

  /** The moon summary: `phase || 'Unknown'`, `illumination || 0`, and the
      impact of that illumination with the moon counted as up when
      `(altitude || 0) > 0`. */
  function MoonSummary(sky: SkyReport): (m: MoonData)
    ensures m.phase == UnknownPhase <==>
      sky.moon.None? || sky.moon.value.phase.None? || sky.moon.value.phase.value in {"", UnknownPhase}
    ensures sky.moon.Some? && sky.moon.value.phase.Some? && sky.moon.value.phase.value != "" ==>
      m.phase == sky.moon.value.phase.value
    ensures sky.moon.None? ==> m == MoonData(UnknownPhase, 0.0, Low)
    ensures sky.moon.Some? ==> m.illum == OrDefault(sky.moon.value.illumination, 0.0)
    ensures m.impact == MoonImpact(m.illum,
      sky.moon.Some? && sky.moon.value.altitude.Some? && sky.moon.value.altitude.value > 0.0)
  {
    match sky.moon
    case None => MoonData(UnknownPhase, 0.0, MoonImpact(0.0, false))
    case Some(moon) =>
      var phase := if moon.phase.Some? && moon.phase.value != "" then moon.phase.value else UnknownPhase;
      var illum := OrDefault(moon.illumination, 0.0);
      MoonData(phase, illum, MoonImpact(illum, OrDefault(moon.altitude, 0.0) > 0.0))
  }

  /** `xs || []`. */
  function OrEmpty(xs: Option<seq<string>>): (r: seq<string>)
    ensures xs.Some? ==> r == xs.value
    ensures xs.None? ==> r == []
  {
    match xs
    case Some(v) => v
    case None => []
  }

  /** The response entry for one window and the sky response fetched for it:
      the window's own instants, weather averaged over its hours, and the moon,
      planets and stars read from the sky response. */
  function EnrichWindow(w: GroupedWindow, sky: SkyReport): (e: ScoredWindow)
    requires |w.slots| > 0
    ensures e.start == w.startTime && e.end == w.endTime
    ensures e.weather == WindowWeather(w.slots)
    ensures e.moon == MoonSummary(sky)
    ensures sky.planets.Some? ==> e.planets == sky.planets.value
    ensures sky.planets.None? ==> e.planets == []
    ensures sky.stars.Some? ==> e.stars == sky.stars.value
    ensures sky.stars.None? ==> e.stars == []
  {
    ScoredWindow(w.startTime, w.endTime, WindowWeather(w.slots), MoonSummary(sky), OrEmpty(sky.planets), OrEmpty(sky.stars))
  }

  /** The fallback sky always gives a known phase name and the placeholder planets. */
  lemma FallbackSummary(phase: real, catalog: seq<BrightStar>)
    ensures MoonSummary(FallbackSky(phase, catalog)).phase == MoonPhaseName(phase)
    ensures MoonSummary(FallbackSky(phase, catalog)).illum == Illumination(phase) as real
    ensures MoonSummary(FallbackSky(phase, catalog)).impact ==
      MoonImpact(Illumination(phase) as real, true)
  {
    assert MoonPhaseName(phase) in PhaseNames;
  }
}

=== FILE: forecast.dfy ===
/** The forecast side of the window engine: unwrapping the provider's response,
    the falsy defaults, and the bulk pass that turns hours into scored night slots. */
module Forecast {
  import opened Wrappers
  import opened Numeric
  import opened Scoring
  import opened Seqs

  /** The parallel hourly arrays a provider returns. `time` holds the parsed
      timestamps in milliseconds; a `None` entry, or an index past the end of
      an array, is a value the provider left out. */
  datatype HourlyData = HourlyData(
    time: seq<int>,
    cloudcover: seq<Option<real>>,
    temperature: seq<Option<real>>,
    windSpeed: seq<Option<real>>)

  /** The value stored under an `hourly` key: JSON `null`, or an object any of
      whose four arrays may be missing. A value that is neither (a number, a
      string) reads like an object with no arrays. */
  datatype HourlyValue =
    | NullHourly
    | HourlyObject(
        time: Option<seq<int>>,
        cloudcover: Option<seq<Option<real>>>,
        temperature: Option<seq<Option<real>>>,
        windSpeed: Option<seq<Option<real>>>)

  /** A provider response as the type guards see it: the value of the
      top-level `hourly` key, if the key is present, and the value of
      `data.hourly`, if `data` is an object with that key. */
  datatype RawForecast = RawForecast(hourly: Option<HourlyValue>, nestedHourly: Option<HourlyValue>)

  /** The two response shapes the engine accepts. */
  datatype Envelope = Flat(flatHourly: HourlyValue) | Nested(nestedData: HourlyValue) {
    function Hourly(): HourlyValue
    {
      match this
      case Flat(h) => h
      case Nested(h) => h
    }
  }

  const InvalidStructure: string := "Invalid forecast data structure"

  /** The type-guard cascade: a top-level `hourly` wins, then `data.hourly`;
      anything else throws. */
  function Unwrap(raw: RawForecast): (r: Result<Envelope>)
    ensures raw.hourly.Some? ==> r == Ok(Flat(raw.hourly.value))
    ensures raw.hourly.None? && raw.nestedHourly.Some? ==> r == Ok(Nested(raw.nestedHourly.value))
    ensures r.Err? <==> raw.hourly.None? && raw.nestedHourly.None?
    ensures r.Err? ==> r.message == InvalidStructure
  {
    match raw.hourly
    case Some(h) => Ok(Flat(h))
    case None =>
      match raw.nestedHourly
      case Some(h) => Ok(Nested(h))
      case None => Err(InvalidStructure)
  }

  /** Either shape yields the same hourly value, so scoring cannot tell the providers apart. */
  lemma UnwrapShapeIndependent(v: HourlyValue)
    ensures Unwrap(RawForecast(Some(v), None)).value.Hourly() == v
    ensures Unwrap(RawForecast(None, Some(v))).value.Hourly() == v
  {
  }

  /** The message of the `TypeError` a missing array raises; the handler's
      `catch` discards it. */
  const MissingArray: string := "Cannot read properties of undefined"

  /** The arrays as the loop reads them. `hourlyData.time.length` throws when
      the value is `null` or has no `time`. The first turn of the loop reads
      `cloudcover[i]`, `temperature_2m[i]` and `wind_speed_10m[i]`, which
      throws when one of them is missing; with no hours the loop never runs,
      so the other three arrays are then never read. */
  function ReadArrays(v: HourlyValue): (r: Result<HourlyData>)
    ensures r.Ok? <==>
      v.HourlyObject? && v.time.Some? &&
      (|v.time.value| == 0 || (v.cloudcover.Some? && v.temperature.Some? && v.windSpeed.Some?))
    ensures r.Ok? ==> r.value.time == v.time.value
    ensures r.Ok? && |v.time.value| > 0 ==>
      r.value.cloudcover == v.cloudcover.value &&
      r.value.temperature == v.temperature.value &&
      r.value.windSpeed == v.windSpeed.value
    ensures r.Err? ==> r.message == MissingArray
  {
    match v
    case NullHourly => Err(MissingArray)
    case HourlyObject(time, cloudcover, temperature, windSpeed) =>
      if time.None? then Err(MissingArray)
      else if |time.value| == 0 then Ok(HourlyData([], [], [], []))
      else if cloudcover.None? || temperature.None? || windSpeed.None? then Err(MissingArray)
      else Ok(HourlyData(time.value, cloudcover.value, temperature.value, windSpeed.value))
  }

  /** The object carrying all four arrays of `h`. */
  function Complete(h: HourlyData): HourlyValue
  {
    HourlyObject(Some(h.time), Some(h.cloudcover), Some(h.temperature), Some(h.windSpeed))
  }

  /** A response carrying all four arrays is read back as exactly those arrays,
      except that with no hours the unread arrays do not matter. */
  lemma ReadArraysComplete(h: HourlyData)
    ensures ReadArrays(Complete(h)).Ok?
    ensures |h.time| > 0 ==> ReadArrays(Complete(h)).value == h
    ensures ReadArrays(Complete(h)).value.time == h.time
  {
  }

  /** A `null` hourly value, or one without `time`, always throws; a missing
      cloud array throws exactly when there is an hour to read. */
  lemma MissingArrayThrows(time: seq<int>, temperature: seq<Option<real>>, windSpeed: seq<Option<real>>)
    ensures ReadArrays(NullHourly).Err?
    ensures ReadArrays(HourlyObject(None, Some([]), Some(temperature), Some(windSpeed))).Err?
    ensures ReadArrays(HourlyObject(Some(time), None, Some(temperature), Some(windSpeed))).Err? <==> |time| > 0
  {
  }

  /** `xs[i]` in JavaScript: `undefined` past the end of the array. */
  function At(xs: seq<Option<real>>, i: nat): Option<real>
  {
    if i < |xs| then xs[i] else None
  }

  /** `v || d` on a number: a missing value and a zero both give way to `d`. */
  function OrDefault(v: Option<real>, d: real): (r: real)
    ensures v.Some? && v.value != 0.0 ==> r == v.value
    ensures v.None? || v.value == 0.0 ==> r == d
  {
    if v.Some? && v.value != 0.0 then v.value else d
  }

  const DefaultCloudCover: real := 0.0
  const DefaultTemperature: real := 70.0
  const DefaultWindSpeed: real := 5.0

  /** One scored hour, as the bulk pass records it. */
  datatype TimeSlot = TimeSlot(
    time: int,
    cloudCover: real,
    temperature: real,
    windSpeed: real,
    score: real,
    isNight: bool)

  /** The clock-hour night test: 21:00 to 06:59 local time. */
  predicate IsNightHour(hour: int)
  {
    hour >= 21 || hour <= 6
  }

  /** The slot the loop body builds for index `i`, before the night test. */
  function SlotAt(h: HourlyData, i: nat): (s: TimeSlot)
    requires i < |h.time|
    ensures s.time == h.time[i]
    ensures s.cloudCover == OrDefault(At(h.cloudcover, i), DefaultCloudCover)
    ensures s.temperature == OrDefault(At(h.temperature, i), DefaultTemperature)
    ensures s.windSpeed == OrDefault(At(h.windSpeed, i), DefaultWindSpeed)
    ensures s.score == BaseScore(s.cloudCover) && s.isNight
  {
    var cloudCover := OrDefault(At(h.cloudcover, i), DefaultCloudCover);
    TimeSlot(
      h.time[i],
      cloudCover,
      OrDefault(At(h.temperature, i), DefaultTemperature),
      OrDefault(At(h.windSpeed, i), DefaultWindSpeed),
      ScoreTimeSlot(cloudCover, 0.0, false),
      true)
  }

  /** Whether index `i` passes the night test under the local clock `hourOf`. */
  predicate NightAt(h: HourlyData, hourOf: int -> int, i: nat)
    requires i < |h.time|
  {
    IsNightHour(hourOf(h.time[i]))
  }

  /** The slot every index would yield, night or not. */
  function AllSlots(h: HourlyData): (r: seq<TimeSlot>)
    ensures |r| == |h.time|
    ensures forall j :: 0 <= j < |h.time| ==> r[j] == SlotAt(h, j)
  {
    seq(|h.time|, j requires 0 <= j < |h.time| => SlotAt(h, j))
  }

  /** The loop over `hourlyData.time` from index `i` on: one slot per night hour, in input order. */
  function ScanFrom(h: HourlyData, hourOf: int -> int, i: nat): (r: seq<TimeSlot>)
    requires i <= |h.time|
    ensures |r| <= |h.time| - i
    ensures IsSubsequence(r, AllSlots(h)[i..])
    ensures forall k :: 0 <= k < |r| ==>
      r[k].isNight && IsNightHour(hourOf(r[k].time)) && r[k].score == BaseScore(r[k].cloudCover)
    ensures forall j :: i <= j < |h.time| && NightAt(h, hourOf, j) ==> SlotAt(h, j) in r
    ensures forall x :: multiset(r)[x] == if IsNightHour(hourOf(x.time)) then multiset(AllSlots(h)[i..])[x] else 0
    decreases |h.time| - i
  {
    if i == |h.time| then []
    else
      var all := AllSlots(h)[i..];
      assert all == [SlotAt(h, i)] + AllSlots(h)[i + 1..];
      if NightAt(h, hourOf, i) then [SlotAt(h, i)] + ScanFrom(h, hourOf, i + 1)
      else ScanFrom(h, hourOf, i + 1)
  }

  /** The bulk pass: scores every night hour with placeholder moon inputs and
      makes no sky lookup. */
  function BulkPass(h: HourlyData, hourOf: int -> int): (r: seq<TimeSlot>)
    ensures |r| <= |h.time|
    ensures forall k :: 0 <= k < |r| ==>
      r[k].isNight && IsNightHour(hourOf(r[k].time)) && r[k].score == Max0(1.0 - r[k].cloudCover / 100.0)
    ensures forall k :: 0 <= k < |r| ==> (r[k].score >= GoodScore <==> r[k].cloudCover <= 40.0)
    ensures forall j :: 0 <= j < |h.time| && IsNightHour(hourOf(h.time[j])) ==> SlotAt(h, j) in r
    ensures IsSubsequence(r, AllSlots(h))
    ensures forall x :: multiset(r)[x] == if IsNightHour(hourOf(x.time)) then multiset(AllSlots(h))[x] else 0
  {
    var r := ScanFrom(h, hourOf, 0);
    assert AllSlots(h)[0..] == AllSlots(h);
    forall k | 0 <= k < |r|
      ensures r[k].score >= GoodScore <==> r[k].cloudCover <= 40.0
    {
      BaseScoreGoodIff(r[k].cloudCover);
    }
    r
  }

  /** The night test as a predicate on slots. */
  function NightSlot(hourOf: int -> int): TimeSlot -> bool
  {
    (s: TimeSlot) => IsNightHour(hourOf(s.time))
  }

  /** The scan from `i` is `filter` with the night test over the slots from `i`. */
  lemma {:induction false} ScanFromIsFilter(h: HourlyData, hourOf: int -> int, i: nat)
    requires i <= |h.time|
    ensures ScanFrom(h, hourOf, i) == Filter(NightSlot(hourOf), AllSlots(h)[i..])
    decreases |h.time| - i
  {
    var all := AllSlots(h)[i..];
    if i < |h.time| {
      ScanFromIsFilter(h, hourOf, i + 1);
      assert all[0] == SlotAt(h, i) && all[1..] == AllSlots(h)[i + 1..];
    }
  }

  /** The bulk pass is `hours.filter(isNight)` over the slot every hour would yield. */
  lemma BulkPassIsFilter(h: HourlyData, hourOf: int -> int)
    ensures BulkPass(h, hourOf) == Filter(NightSlot(hourOf), AllSlots(h))
  {
    ScanFromIsFilter(h, hourOf, 0);
    assert AllSlots(h)[0..] == AllSlots(h);
  }

  predicate StrictlyIncreasing(xs: seq<int>)
  {
    forall a, b :: 0 <= a < b < |xs| ==> xs[a] < xs[b]
  }

  function Times(slots: seq<TimeSlot>): (ts: seq<int>)
    ensures |ts| == |slots|
    ensures forall k :: 0 <= k < |ts| ==> ts[k] == slots[k].time
  {
    seq(|slots|, k requires 0 <= k < |slots| => slots[k].time)
  }

  /** On a chronological forecast the slots come out in chronological order. */
  lemma ScanFromChronological(h: HourlyData, hourOf: int -> int, i: nat)
    requires i < |h.time|
    requires StrictlyIncreasing(h.time)
    ensures StrictlyIncreasing(Times(ScanFrom(h, hourOf, i)))
    ensures forall k :: 0 <= k < |ScanFrom(h, hourOf, i)| ==> h.time[i] <= ScanFrom(h, hourOf, i)[k].time
  {
    var all := AllSlots(h)[i..];
    assert StrictlyIncreasing(Times(all)) by {
      assert forall k :: 0 <= k < |all| ==> Times(all)[k] == h.time[i + k];
    }
    SubsequenceChronological(ScanFrom(h, hourOf, i), all);
  }

  /** A subsequence of a chronological sequence is chronological and starts no
      earlier than the sequence does. */
  lemma {:induction false} SubsequenceChronological(a: seq<TimeSlot>, b: seq<TimeSlot>)
    requires IsSubsequence(a, b) && StrictlyIncreasing(Times(b))
    ensures StrictlyIncreasing(Times(a))
    ensures |a| > 0 ==> forall k :: 0 <= k < |a| ==> b[0].time <= a[k].time
    decreases |b|
  {
    if |a| > 0 {
      var tail := b[1..];
      assert StrictlyIncreasing(Times(tail)) by {
        assert forall k :: 0 <= k < |tail| ==> Times(tail)[k] == Times(b)[k + 1];
      }
      if a[0] == b[0] && IsSubsequence(a[1..], tail) {
        SubsequenceChronological(a[1..], tail);
        if |a| > 1 {
          assert Times(b)[0] < Times(b)[1];
        }
        PrependEarlier(a[0], a[1..]);
        assert a == [a[0]] + a[1..];
      } else {
        SubsequenceChronological(a, tail);
        assert Times(b)[0] < Times(b)[1];
      }
    }
  }

  /** A slot earlier than every slot of a chronological run keeps it chronological when put in front. */
  lemma PrependEarlier(s: TimeSlot, rest: seq<TimeSlot>)
    requires StrictlyIncreasing(Times(rest))
    requires forall k :: 0 <= k < |rest| ==> s.time < rest[k].time
    ensures StrictlyIncreasing(Times([s] + rest))
  {
    var r := [s] + rest;
    forall a, b | 0 <= a < b < |r|
      ensures Times(r)[a] < Times(r)[b]
    {
      if a > 0 {
        assert Times(rest)[a - 1] < Times(rest)[b - 1];
      }
    }
  }

  lemma BulkPassChronological(h: HourlyData, hourOf: int -> int)
    requires StrictlyIncreasing(h.time)
    ensures StrictlyIncreasing(Times(BulkPass(h, hourOf)))
  {
    if |h.time| > 0 {
      ScanFromChronological(h, hourOf, 0);
    }
  }

  /** A forecast that reports no cloud at all (zero or missing) gives every
      night hour a perfect, good score. */
  lemma ClearSkyAllPerfect(h: HourlyData, hourOf: int -> int)
    requires forall j :: 0 <= j < |h.cloudcover| ==> h.cloudcover[j].None? || h.cloudcover[j].value == 0.0
    ensures forall k :: 0 <= k < |BulkPass(h, hourOf)| ==>
      BulkPass(h, hourOf)[k].score == 1.0 && BulkPass(h, hourOf)[k].score >= GoodScore
  {
    var r := BulkPass(h, hourOf);
    SubsequenceMembers(r, AllSlots(h)[0..]);
    forall k | 0 <= k < |r|
      ensures r[k].score == 1.0
    {
      assert r[k] in AllSlots(h);
    }
  }
}

=== FILE: grouping.dfy ===
/** `groupTimeWindows`: good slots grouped into runs, closed into windows, ranked. */
module Grouping {
  import opened Numeric
  import opened Seqs
  import opened Scoring
  import opened Forecast

  const OneHourMs: int := 60 * 60000
  const TwoHoursMs: int := 2 * 60 * 60 * 1000

  /** Fewest slots a run needs to become a window. */
  const MinSlots: nat := 2

  /** Most windows the ranking keeps. */
  const MaxWindows: nat := 3

  /** A closed run of good slots with its time span and mean score. */
  datatype GroupedWindow = GroupedWindow(startTime: int, endTime: int, avgScore: real, slots: seq<TimeSlot>)

  predicate IsGood(s: TimeSlot)
  {
    s.score >= GoodScore
  }

  /** `slots.filter(slot => slot.score >= 0.6)`. */
  function GoodSlots(slots: seq<TimeSlot>): (r: seq<TimeSlot>)
    ensures IsSubsequence(r, slots)
    ensures forall k :: 0 <= k < |r| ==> r[k].score >= GoodScore
    ensures forall k :: 0 <= k < |slots| && slots[k].score >= GoodScore ==> slots[k] in r
    ensures forall x :: multiset(r)[x] == if x.score >= GoodScore then multiset(slots)[x] else 0
  {
    FilterCounts(IsGood, slots);
    Filter(IsGood, slots)
  }

  function Last<T>(g: seq<T>): T
    requires |g| > 0
  {
    g[|g| - 1]
  }

  /** Each slot of the run is at most two hours after the one before it. */
  predicate Chained(g: seq<TimeSlot>)
  {
    forall k :: 0 < k < |g| ==> g[k].time - g[k - 1].time <= TwoHoursMs
  }

  /** Runs are non-empty and chained, and each run starts more than two hours
      after the previous run ends. */
  predicate WellGrouped(gs: seq<seq<TimeSlot>>)
    decreases |gs|
  {
    |gs| == 0 ||
      var n := |gs| - 1;
      && WellGrouped(gs[..n])
      && |gs[n]| > 0
      && Chained(gs[n])
      && (n > 0 ==> |gs[n - 1]| > 0 && gs[n][0].time - Last(gs[n - 1]).time > TwoHoursMs)
  }

  /** The run `i` starts more than two hours after run `i - 1` ends. */
  predicate BreakBefore(gs: seq<seq<TimeSlot>>, i: nat)
    requires 0 < i < |gs|
  {
    |gs[i]| > 0 && |gs[i - 1]| > 0 && gs[i][0].time - Last(gs[i - 1]).time > TwoHoursMs
  }

  /** What a well-formed grouping promises of each run and each boundary. */
  lemma {:induction false} WellGroupedMeans(gs: seq<seq<TimeSlot>>)
    requires WellGrouped(gs)
    ensures forall i :: 0 <= i < |gs| ==> |gs[i]| > 0 && Chained(gs[i])
    ensures forall i :: 0 < i < |gs| ==> BreakBefore(gs, i)
    decreases |gs|
  {
    if |gs| > 0 {
      var n := |gs| - 1;
      WellGroupedMeans(gs[..n]);
      assert forall i :: 0 <= i < n ==> gs[..n][i] == gs[i];
      forall i | 0 < i < n
        ensures BreakBefore(gs, i)
      {
        assert BreakBefore(gs[..n], i);
      }
    }
  }

  /** The runs laid end to end. */
  function Flatten(gs: seq<seq<TimeSlot>>): seq<TimeSlot>
  {
    if |gs| == 0 then [] else Flatten(gs[..|gs| - 1]) + gs[|gs| - 1]
  }

  /** The `for (const slot of goodSlots)` loop: `current` is `currentWindow`,
      `closed` the runs it has finalized so far. Every run is kept here; the
      size filter is applied when runs become windows. */
  function GroupLoop(rest: seq<TimeSlot>, current: seq<TimeSlot>, closed: seq<seq<TimeSlot>>): seq<seq<TimeSlot>>
    decreases |rest|
  {
    if |rest| == 0 then
      if |current| == 0 then closed else closed + [current]
    else
      var slot := rest[0];
      if |current| == 0 then GroupLoop(rest[1..], [slot], closed)
      else if slot.time - Last(current).time <= TwoHoursMs then GroupLoop(rest[1..], current + [slot], closed)
      else GroupLoop(rest[1..], [slot], closed + [current])
  }

  /** The loop never reopens a finished run: the runs closed so far stay in
      front, a non-empty open run or input adds at least one run, and there
      are never more new runs than slots. */
  lemma {:induction false} GroupLoopKeepsClosed(rest: seq<TimeSlot>, current: seq<TimeSlot>, closed: seq<seq<TimeSlot>>)
    ensures closed <= GroupLoop(rest, current, closed)
    ensures |current| + |rest| > 0 ==> |GroupLoop(rest, current, closed)| > |closed|
    ensures |GroupLoop(rest, current, closed)| <= |closed| + |current| + |rest|
    decreases |rest|
  {
    if |rest| > 0 {
      var slot := rest[0];
      if |current| == 0 {
        GroupLoopKeepsClosed(rest[1..], [slot], closed);
      } else if slot.time - Last(current).time <= TwoHoursMs {
        GroupLoopKeepsClosed(rest[1..], current + [slot], closed);
      } else {
        GroupLoopKeepsClosed(rest[1..], [slot], closed + [current]);
        assert closed <= closed + [current];
      }
    }
  }

  /** Closing the current run keeps the grouping well formed. */
  lemma CloseRun(closed: seq<seq<TimeSlot>>, current: seq<TimeSlot>)
    requires WellGrouped(closed) && Chained(current) && |current| > 0
    requires |closed| > 0 ==> |Last(closed)| > 0 && current[0].time - Last(Last(closed)).time > TwoHoursMs
    ensures WellGrouped(closed + [current])
    ensures Flatten(closed + [current]) == Flatten(closed) + current
  {
    var gs := closed + [current];
    assert gs[..|closed|] == closed;
    assert gs[|closed|] == current;
  }

  /** Appending a slot at most two hours after the last keeps a run chained. */
  lemma ExtendRun(current: seq<TimeSlot>, slot: TimeSlot)
    requires Chained(current) && |current| > 0
    requires slot.time - Last(current).time <= TwoHoursMs
    ensures Chained(current + [slot])
  {
    var g := current + [slot];
    forall k | 0 < k < |g|
      ensures g[k].time - g[k - 1].time <= TwoHoursMs
    {
      if k < |current| {
        assert g[k] == current[k] && g[k - 1] == current[k - 1];
      }
    }
  }

  /** The loop invariant: the runs stay well formed and, with the current run
      and the unread slots, lay out exactly the input. */
  lemma {:induction false} GroupLoopSpec(rest: seq<TimeSlot>, current: seq<TimeSlot>, closed: seq<seq<TimeSlot>>)
    requires WellGrouped(closed) && Chained(current)
    requires |current| == 0 ==> |closed| == 0
    requires |current| > 0 && |closed| > 0 ==>
      |Last(closed)| > 0 && current[0].time - Last(Last(closed)).time > TwoHoursMs
    ensures WellGrouped(GroupLoop(rest, current, closed))
    ensures Flatten(GroupLoop(rest, current, closed)) == Flatten(closed) + current + rest
    decreases |rest|, 1
  {
    if |rest| == 0 {
      FinishStep(current, closed);
    } else if |current| == 0 {
      StartStep(rest, closed);
    } else if rest[0].time - Last(current).time <= TwoHoursMs {
      ExtendStep(rest, current, closed);
    } else {
      BreakStep(rest, current, closed);
    }
  }

  /** At the end of the input the open run, if any, is closed. */
  lemma FinishStep(current: seq<TimeSlot>, closed: seq<seq<TimeSlot>>)
    requires WellGrouped(closed) && Chained(current)
    requires |current| == 0 ==> |closed| == 0
    requires |current| > 0 && |closed| > 0 ==>
      |Last(closed)| > 0 && current[0].time - Last(Last(closed)).time > TwoHoursMs
    ensures WellGrouped(GroupLoop([], current, closed))
    ensures Flatten(GroupLoop([], current, closed)) == Flatten(closed) + current + []
  {
    if |current| > 0 {
      CloseRun(closed, current);
    }
  }

  /** The first good slot opens the first run. */
  lemma StartStep(rest: seq<TimeSlot>, closed: seq<seq<TimeSlot>>)
    requires |rest| > 0 && |closed| == 0
    ensures WellGrouped(GroupLoop(rest, [], closed))
    ensures Flatten(GroupLoop(rest, [], closed)) == Flatten(closed) + [] + rest
    decreases |rest|, 0
  {
    GroupLoopSpec(rest[1..], [rest[0]], closed);
    assert rest == [rest[0]] + rest[1..];
  }

  /** A slot within two hours of the run's last slot joins the run. */
  lemma ExtendStep(rest: seq<TimeSlot>, current: seq<TimeSlot>, closed: seq<seq<TimeSlot>>)
    requires |rest| > 0 && |current| > 0
    requires WellGrouped(closed) && Chained(current)
    requires |closed| > 0 ==> |Last(closed)| > 0 && current[0].time - Last(Last(closed)).time > TwoHoursMs
    requires rest[0].time - Last(current).time <= TwoHoursMs
    ensures WellGrouped(GroupLoop(rest, current, closed))
    ensures Flatten(GroupLoop(rest, current, closed)) == Flatten(closed) + current + rest
    decreases |rest|, 0
  {
    var next := current + [rest[0]];
    ExtendRun(current, rest[0]);
    GroupLoopSpec(rest[1..], next, closed);
    ExtendUnfolds(rest, current, closed);
    ShiftFirst(Flatten(closed), current, rest);
  }

  /** One turn of the loop when the slot joins the run. */
  lemma ExtendUnfolds(rest: seq<TimeSlot>, current: seq<TimeSlot>, closed: seq<seq<TimeSlot>>)
    requires |rest| > 0 && |current| > 0
    requires rest[0].time - Last(current).time <= TwoHoursMs
    ensures GroupLoop(rest, current, closed) == GroupLoop(rest[1..], current + [rest[0]], closed)
  {
  }

  /** Moving the first unread element onto the run leaves the layout unchanged. */
  lemma ShiftFirst<T>(f: seq<T>, current: seq<T>, rest: seq<T>)
    requires |rest| > 0
    ensures f + (current + [rest[0]]) + rest[1..] == f + current + rest
  {
    assert rest == [rest[0]] + rest[1..];
  }

  /** A slot more than two hours after the run's last slot closes the run and opens the next. */
  lemma BreakStep(rest: seq<TimeSlot>, current: seq<TimeSlot>, closed: seq<seq<TimeSlot>>)
    requires |rest| > 0 && |current| > 0
    requires WellGrouped(closed) && Chained(current)
    requires |closed| > 0 ==> |Last(closed)| > 0 && current[0].time - Last(Last(closed)).time > TwoHoursMs
    requires rest[0].time - Last(current).time > TwoHoursMs
    ensures WellGrouped(GroupLoop(rest, current, closed))
    ensures Flatten(GroupLoop(rest, current, closed)) == Flatten(closed) + current + rest
    decreases |rest|, 0
  {
    var slot, more := rest[0], rest[1..];
    var closed' := closed + [current];
    assert GroupLoop(rest, current, closed) == GroupLoop(more, [slot], closed');
    CloseRun(closed, current);
    assert Last(closed') == current;
    GroupLoopSpec(more, [slot], closed');
    assert [slot] + more == rest;
    AppendAssoc(Flatten(closed) + current, [slot], more);
  }

  /** The runs of a sequence of good slots. */
  function Groups(good: seq<TimeSlot>): (gs: seq<seq<TimeSlot>>)
    ensures WellGrouped(gs)
    ensures Flatten(gs) == good
  {
    GroupLoopSpec(good, [], []);
    GroupLoop(good, [], [])
  }

  /** Every slot of every run is one of the flattened slots. */
  lemma {:induction false} InFlatten(gs: seq<seq<TimeSlot>>, i: nat, k: nat)
    requires i < |gs| && k < |gs[i]|
    ensures gs[i][k] in Flatten(gs)
    decreases |gs|
  {
    if i < |gs| - 1 {
      assert gs[..|gs| - 1][i] == gs[i];
      InFlatten(gs[..|gs| - 1], i, k);
    }
  }

  function Scores(g: seq<TimeSlot>): (r: seq<real>)
    ensures |r| == |g|
    ensures forall k :: 0 <= k < |g| ==> r[k] == g[k].score
  {
    seq(|g|, k requires 0 <= k < |g| => g[k].score)
  }

  /** Finalizing a run: it starts at its first slot, ends an hour after its
      last, and scores the mean of its slots. */
  function MakeWindow(g: seq<TimeSlot>): (w: GroupedWindow)
    requires |g| > 0
    ensures w.slots == g && w.startTime == g[0].time && w.endTime == Last(g).time + OneHourMs
    ensures w.avgScore == Mean(Scores(g))
  {
    GroupedWindow(g[0].time, Last(g).time + OneHourMs, Sum(Scores(g)) / |g| as real, g)
  }

  /** A finalized run is a valid window exactly when it has at least two
      slots, all good, each within two hours of the one before. */
  lemma MakeWindowValidIff(g: seq<TimeSlot>)
    requires |g| > 0
    ensures ValidWindow(MakeWindow(g)) <==>
      |g| >= MinSlots && (forall k :: 0 <= k < |g| ==> g[k].score >= GoodScore) && Chained(g)
  {
  }

  /** What every window `groupTimeWindows` returns satisfies. */
  predicate ValidWindow(w: GroupedWindow)
  {
    && |w.slots| >= MinSlots
    && (forall k :: 0 <= k < |w.slots| ==> w.slots[k].score >= GoodScore)
    && Chained(w.slots)
    && w.startTime == w.slots[0].time
    && w.endTime == Last(w.slots).time + OneHourMs
    && w.avgScore == Mean(Scores(w.slots))
  }

  /** A run long enough to become a window. */
  predicate IsLong(g: seq<TimeSlot>)
  {
    |g| >= MinSlots
  }

  /** The runs with at least two slots, finalized, in run order. */
  function CloseWindows(gs: seq<seq<TimeSlot>>): (ws: seq<GroupedWindow>)
    ensures |ws| <= |gs|
    ensures forall k :: 0 <= k < |ws| ==> |ws[k].slots| >= MinSlots && ws[k].slots in gs && ws[k] == MakeWindow(ws[k].slots)
    ensures forall i :: 0 <= i < |gs| && |gs[i]| >= MinSlots ==> MakeWindow(gs[i]) in ws
  {
    if |gs| == 0 then []
    else
      var init := gs[..|gs| - 1];
      var run := gs[|gs| - 1];
      assert forall i :: 0 <= i < |init| ==> gs[i] == init[i];
      CloseWindows(init) + (if |run| >= MinSlots then [MakeWindow(run)] else [])
  }

  /** One window per long run, in run order: the `k`-th window is built from
      the `k`-th run of at least two slots. */
  lemma {:induction false} CloseWindowsPerLongRun(gs: seq<seq<TimeSlot>>)
    ensures |CloseWindows(gs)| == |Filter(IsLong, gs)|
    ensures forall k :: 0 <= k < |CloseWindows(gs)| ==> CloseWindows(gs)[k].slots == Filter(IsLong, gs)[k]
  {
    if |gs| > 0 {
      var init := gs[..|gs| - 1];
      var run := gs[|gs| - 1];
      var last := if IsLong(run) then [MakeWindow(run)] else [];
      var lastRun := if IsLong(run) then [run] else [];
      assert CloseWindows(gs) == CloseWindows(init) + last;
      assert Filter(IsLong, gs) == Filter(IsLong, init) + lastRun by {
        assert gs == init + [run];
        FilterSnoc(IsLong, init, run);
      }
      CloseWindowsPerLongRun(init);
      SlotsAppend(CloseWindows(init), last, Filter(IsLong, init), lastRun);
    }
  }

  /** Windows built run by run from two parts are built run by run from the whole. */
  lemma SlotsAppend(ws: seq<GroupedWindow>, more: seq<GroupedWindow>, gs: seq<seq<TimeSlot>>, moreRuns: seq<seq<TimeSlot>>)
    requires |ws| == |gs| && |more| == |moreRuns|
    requires forall k :: 0 <= k < |ws| ==> ws[k].slots == gs[k]
    requires forall k :: 0 <= k < |more| ==> more[k].slots == moreRuns[k]
    ensures forall k :: 0 <= k < |ws + more| ==> (ws + more)[k].slots == (gs + moreRuns)[k]
  {
    forall k | 0 <= k < |ws + more|
      ensures (ws + more)[k].slots == (gs + moreRuns)[k]
    {
      if k >= |ws| {
        assert (ws + more)[k] == more[k - |ws|] && (gs + moreRuns)[k] == moreRuns[k - |ws|];
      }
    }
  }

  /** The windows before ranking. */
  function Candidates(slots: seq<TimeSlot>): seq<GroupedWindow>
  {
    CloseWindows(Groups(GoodSlots(slots)))
  }

  /** Every candidate window is valid. */
  lemma CandidatesValid(slots: seq<TimeSlot>)
    ensures forall k :: 0 <= k < |Candidates(slots)| ==> ValidWindow(Candidates(slots)[k])
  {
    var good := GoodSlots(slots);
    var gs := Groups(good);
    var ws := CloseWindows(gs);
    WellGroupedMeans(gs);
    forall k | 0 <= k < |ws|
      ensures ValidWindow(ws[k])
    {
      RunWindowValid(gs, good, ws[k].slots);
    }
  }

  lemma RunWindowValid(gs: seq<seq<TimeSlot>>, good: seq<TimeSlot>, g: seq<TimeSlot>)
    requires Flatten(gs) == good
    requires forall k :: 0 <= k < |good| ==> good[k].score >= GoodScore
    requires forall i :: 0 <= i < |gs| ==> |gs[i]| > 0 && Chained(gs[i])
    requires g in gs && |g| >= MinSlots
    ensures ValidWindow(MakeWindow(g))
  {
    var i :| 0 <= i < |gs| && gs[i] == g;
    forall j | 0 <= j < |g|
      ensures g[j].score >= GoodScore
    {
      InFlatten(gs, i, j);
    }
  }

  /** Sorted by mean score, highest first. */
  predicate SortedDesc(ws: seq<GroupedWindow>)
  {
    forall a, b :: 0 <= a < b < |ws| ==> ws[a].avgScore >= ws[b].avgScore
  }

  /** Places `w` ahead of the first window that does not beat it. */
  function InsertDesc(w: GroupedWindow, ws: seq<GroupedWindow>): (r: seq<GroupedWindow>)
    ensures |r| == |ws| + 1
    ensures multiset(r) == multiset(ws) + multiset{w}
  {
    if |ws| == 0 || ws[0].avgScore <= w.avgScore then [w] + ws
    else
      assert ws == [ws[0]] + ws[1..];
      [ws[0]] + InsertDesc(w, ws[1..])
  }

  /** Inserting into a sorted sequence keeps it sorted. */
  lemma {:induction false} InsertDescSorted(w: GroupedWindow, ws: seq<GroupedWindow>)
    requires SortedDesc(ws)
    ensures SortedDesc(InsertDesc(w, ws))
  {
    if |ws| > 0 && ws[0].avgScore > w.avgScore {
      var tail := InsertDesc(w, ws[1..]);
      InsertDescSorted(w, ws[1..]);
      InsertDescBounded(w, ws[1..], ws[0].avgScore);
      var r := [ws[0]] + tail;
      forall a, b | 0 <= a < b < |r|
        ensures r[a].avgScore >= r[b].avgScore
      {
        if a > 0 {
          assert r[a] == tail[a - 1] && r[b] == tail[b - 1];
        } else {
          assert r[b] == tail[b - 1];
        }
      }
    }
  }

  /** Inserting never raises the best score above the larger of the inserted one and the old best. */
  lemma {:induction false} InsertDescBounded(w: GroupedWindow, ws: seq<GroupedWindow>, bound: real)
    requires w.avgScore <= bound
    requires forall k :: 0 <= k < |ws| ==> ws[k].avgScore <= bound
    ensures forall k :: 0 <= k < |InsertDesc(w, ws)| ==> InsertDesc(w, ws)[k].avgScore <= bound
  {
    if |ws| > 0 && ws[0].avgScore > w.avgScore {
      InsertDescBounded(w, ws[1..], bound);
    }
  }

  /** `windows.sort((a, b) => b.avgScore - a.avgScore)`, a stable sort. */
  function SortDesc(ws: seq<GroupedWindow>): (r: seq<GroupedWindow>)
    ensures multiset(r) == multiset(ws)
    ensures SortedDesc(r)
  {
    if |ws| == 0 then []
    else
      assert ws == [ws[0]] + ws[1..];
      InsertDescSorted(ws[0], SortDesc(ws[1..]));
      InsertDesc(ws[0], SortDesc(ws[1..]))
  }

  /** The windows of score `score`, in order. */
  function WithScore(ws: seq<GroupedWindow>, score: real): seq<GroupedWindow>
  {
    if |ws| == 0 then []
    else (if ws[0].avgScore == score then [ws[0]] else []) + WithScore(ws[1..], score)
  }

  lemma WithScoreCons(x: GroupedWindow, rest: seq<GroupedWindow>, score: real)
    ensures WithScore([x] + rest, score) == (if x.avgScore == score then [x] else []) + WithScore(rest, score)
  {
    assert ([x] + rest)[1..] == rest;
  }

  /** Insertion passes only windows that beat `w`, so it never reorders windows of one score. */
  lemma {:induction false} InsertKeepsTies(w: GroupedWindow, ws: seq<GroupedWindow>, score: real)
    ensures WithScore(InsertDesc(w, ws), score) == (if w.avgScore == score then [w] else []) + WithScore(ws, score)
  {
    if |ws| == 0 || ws[0].avgScore <= w.avgScore {
      WithScoreCons(w, ws, score);
    } else {
      InsertKeepsTies(w, ws[1..], score);
      WithScoreCons(ws[0], InsertDesc(w, ws[1..]), score);
      WithScoreCons(ws[0], ws[1..], score);
      assert ws == [ws[0]] + ws[1..];
    }
  }

  /** The sort is stable: windows of equal score keep their input order. */
  lemma {:induction false} SortStable(ws: seq<GroupedWindow>, score: real)
    ensures WithScore(SortDesc(ws), score) == WithScore(ws, score)
  {
    if |ws| > 0 {
      SortStable(ws[1..], score);
      InsertKeepsTies(ws[0], SortDesc(ws[1..]), score);
    }
  }

  /** The first `n` of a sorted sequence score at least as high as anything after them. */
  lemma TakeIsTop(sorted: seq<GroupedWindow>, n: nat, w: GroupedWindow)
    requires SortedDesc(sorted)
    requires w in sorted && w !in Take(sorted, n)
    ensures forall k :: 0 <= k < |Take(sorted, n)| ==> Take(sorted, n)[k].avgScore >= w.avgScore
  {
    var j :| 0 <= j < |sorted| && sorted[j] == w;
  }

  /** `groupTimeWindows`: the valid windows, best mean score first, at most three. */
  function GroupTimeWindows(slots: seq<TimeSlot>): (r: seq<GroupedWindow>)
    ensures |r| == if |Candidates(slots)| <= MaxWindows then |Candidates(slots)| else MaxWindows
    ensures forall k :: 0 <= k < |r| ==> ValidWindow(r[k]) && r[k] in Candidates(slots)
    ensures SortedDesc(r)
    ensures forall w :: w in Candidates(slots) && w !in r ==>
      forall k :: 0 <= k < |r| ==> r[k].avgScore >= w.avgScore
    ensures multiset(r) <= multiset(Candidates(slots))
    ensures forall score :: WithScore(r, score) <= WithScore(Candidates(slots), score)
  {
    CandidatesValid(slots);
    RankedFromCandidates(Candidates(slots));
    Take(SortDesc(Candidates(slots)), MaxWindows)
  }

  /** Among the windows of one score, a prefix keeps the first ones. */
  lemma {:induction false} PrefixWithScore(ws: seq<GroupedWindow>, n: nat, score: real)
    requires n <= |ws|
    ensures WithScore(ws[..n], score) <= WithScore(ws, score)
  {
    if n > 0 {
      PrefixWithScore(ws[1..], n - 1, score);
      assert ws[..n] == [ws[0]] + ws[1..][..n - 1];
      WithScoreCons(ws[0], ws[1..][..n - 1], score);
      WithScoreCons(ws[0], ws[1..], score);
      assert ws == [ws[0]] + ws[1..];
    }
  }

  /** A prefix of a descending sequence is descending. */
  lemma TakeSorted(sorted: seq<GroupedWindow>, n: nat)
    requires SortedDesc(sorted)
    ensures SortedDesc(Take(sorted, n))
  {
    var r := Take(sorted, n);
    assert forall a, b :: 0 <= a < b < |r| ==> r[a] == sorted[a] && r[b] == sorted[b];
  }

  /** A prefix takes each window at most as often as the whole sequence holds it. */
  lemma TakeSubMultiset<T>(s: seq<T>, n: nat)
    ensures multiset(Take(s, n)) <= multiset(s)
  {
    assert s == Take(s, n) + s[|Take(s, n)|..];
  }

  /** The top three of the stably sorted candidates: as many as there are, up
      to three, valid candidates each taken at most as often as it occurs,
      highest score first, none beaten by a candidate left out, and among
      equal scores the earliest candidates. */
  lemma RankedFromCandidates(candidates: seq<GroupedWindow>)
    requires forall k :: 0 <= k < |candidates| ==> ValidWindow(candidates[k])
    ensures |Take(SortDesc(candidates), MaxWindows)| == if |candidates| <= MaxWindows then |candidates| else MaxWindows
    ensures SortedDesc(Take(SortDesc(candidates), MaxWindows))
    ensures forall k :: 0 <= k < |Take(SortDesc(candidates), MaxWindows)| ==>
      ValidWindow(Take(SortDesc(candidates), MaxWindows)[k]) && Take(SortDesc(candidates), MaxWindows)[k] in candidates
    ensures forall w :: w in candidates && w !in Take(SortDesc(candidates), MaxWindows) ==>
      forall k :: 0 <= k < |Take(SortDesc(candidates), MaxWindows)| ==> Take(SortDesc(candidates), MaxWindows)[k].avgScore >= w.avgScore
    ensures multiset(Take(SortDesc(candidates), MaxWindows)) <= multiset(candidates)
    ensures forall score :: WithScore(Take(SortDesc(candidates), MaxWindows), score) <= WithScore(candidates, score)
  {
    var sorted := SortDesc(candidates);
    assert |sorted| == |candidates| by {
      assert |multiset(sorted)| == |multiset(candidates)|;
    }
    TakeSorted(sorted, MaxWindows);
    TakeSubMultiset(sorted, MaxWindows);
    TakeMembers(candidates, sorted);
    TakeBeatsRest(candidates, sorted);
    TakeFirstTies(candidates);
  }

  /** Each kept window is a valid candidate. */
  lemma TakeMembers(candidates: seq<GroupedWindow>, sorted: seq<GroupedWindow>)
    requires forall k :: 0 <= k < |candidates| ==> ValidWindow(candidates[k])
    requires multiset(sorted) == multiset(candidates)
    ensures forall k :: 0 <= k < |Take(sorted, MaxWindows)| ==>
      ValidWindow(Take(sorted, MaxWindows)[k]) && Take(sorted, MaxWindows)[k] in candidates
  {
    var r := Take(sorted, MaxWindows);
    forall k | 0 <= k < |r|
      ensures ValidWindow(r[k]) && r[k] in candidates
    {
      assert r[k] == sorted[k] && sorted[k] in multiset(sorted);
    }
  }

  /** No candidate left out of a sorted prefix beats a kept one. */
  lemma TakeBeatsRest(candidates: seq<GroupedWindow>, sorted: seq<GroupedWindow>)
    requires multiset(sorted) == multiset(candidates) && SortedDesc(sorted)
    ensures forall w :: w in candidates && w !in Take(sorted, MaxWindows) ==>
      forall k :: 0 <= k < |Take(sorted, MaxWindows)| ==> Take(sorted, MaxWindows)[k].avgScore >= w.avgScore
  {
    var r := Take(sorted, MaxWindows);
    forall w | w in candidates && w !in r
      ensures forall k :: 0 <= k < |r| ==> r[k].avgScore >= w.avgScore
    {
      assert w in multiset(candidates);
      TakeIsTop(sorted, MaxWindows, w);
    }
  }

  /** Among candidates of equal score, the top three keep the earliest ones. */
  lemma TakeFirstTies(candidates: seq<GroupedWindow>)
    ensures forall score :: WithScore(Take(SortDesc(candidates), MaxWindows), score) <= WithScore(candidates, score)
  {
    var sorted := SortDesc(candidates);
    forall score
      ensures WithScore(Take(sorted, MaxWindows), score) <= WithScore(candidates, score)
    {
      SortStable(candidates, score);
      PrefixWithScore(sorted, |Take(sorted, MaxWindows)|, score);
    }
  }
}

=== FILE: numeric.dfy ===
/** The JavaScript arithmetic the model needs, over exact reals and unbounded integers. */
module Numeric {

  /** `Math.round` on a finite number: the nearest integer, ties rounded up. */
  function Round(x: real): (r: int)
    ensures r as real <= x + 0.5 < r as real + 1.0
  {
    (x + 0.5).Floor
  }

  /** Any integer within half a unit (ties upward) of `x` is `Round(x)`. */
  lemma RoundUnique(x: real, n: int)
    requires n as real <= x + 0.5 < n as real + 1.0
    ensures Round(x) == n
  {
  }

  /** `Math.round` is monotone. */
  lemma RoundMonotone(x: real, y: real)
    requires x <= y
    ensures Round(x) <= Round(y)
  {
  }

  /** `Math.max(0, x)`. */
  function Max0(x: real): (r: real)
    ensures r >= 0.0 && r >= x
    ensures r == 0.0 || r == x
  {
    if x < 0.0 then 0.0 else x
  }

  /** The smaller of two integers. */
  function Min(a: int, b: int): (r: int)
    ensures r <= a && r <= b && (r == a || r == b)
  {
    if a <= b then a else b
  }

  /** The larger of two integers. */
  function Max(a: int, b: int): (r: int)
    ensures r >= a && r >= b && (r == a || r == b)
  {
    if a <= b then b else a
  }

  function Abs(x: real): (r: real)
    ensures r >= 0.0 && (r == x || r == -x)
  {
    if x < 0.0 then -x else x
  }

  /** `n / 2` on a JavaScript number, truncated toward zero the way
      `new Date(value)` truncates a fractional time value. */
  function HalfTowardZero(n: int): (r: int)
    ensures n >= 0 ==> 0 <= 2 * r <= n < 2 * r + 2
    ensures n < 0 ==> 2 * r - 2 < n <= 2 * r <= 0
  {
    if n >= 0 then n / 2 else -((-n) / 2)
  }

  /** `xs.reduce((sum, x) => sum + x, 0)`: a left fold from zero. */
  function Sum(xs: seq<real>): real
  {
    if |xs| == 0 then 0.0 else Sum(xs[..|xs| - 1]) + xs[|xs| - 1]
  }

  /** The arithmetic mean, `reduce(+, 0) / length`. */
  function Mean(xs: seq<real>): real
    requires |xs| > 0
  {
    Sum(xs) / |xs| as real
  }

  /** A sum of terms in `[lo, hi]` lies in `[n * lo, n * hi]`. */
  lemma {:induction false} SumBounds(xs: seq<real>, lo: real, hi: real)
    requires forall i :: 0 <= i < |xs| ==> lo <= xs[i] <= hi
    ensures |xs| as real * lo <= Sum(xs) <= |xs| as real * hi
  {
    if |xs| > 0 {
      var n := |xs| - 1;
      SumBounds(xs[..n], lo, hi);
      assert n as real * lo + lo == |xs| as real * lo;
      assert n as real * hi + hi == |xs| as real * hi;
    }
  }

  /** The mean of terms in `[lo, hi]` lies in `[lo, hi]`. */
  lemma MeanBounds(xs: seq<real>, lo: real, hi: real)
    requires |xs| > 0
    requires forall i :: 0 <= i < |xs| ==> lo <= xs[i] <= hi
    ensures lo <= Mean(xs) <= hi
  {
    SumBounds(xs, lo, hi);
    var n := |xs| as real;
    assert Mean(xs) * n == Sum(xs);
  }
}

=== FILE: pipeline.dfy ===
/** The `POST` handler of the best-windows endpoint, with every outbound call
    replaced by its outcome, supplied as an input. */
module BestWindows {
  import opened Wrappers
  import opened Seqs
  import opened Scoring
  import opened Forecast
  import opened Grouping
  import opened Sky
  import opened Enrich

  /** Which forecast provider answered; the sky lookup follows the same choice. */
  datatype Provider = Astrospheric | OpenMeteo

  /** A geocoding result: coordinates and the display name returned to the caller. */
  datatype Place = Place(lat: real, lng: real, name: string)

  /** The JSON body and HTTP status the handler returns. */
  datatype Response = Found(location: string, windows: seq<ScoredWindow>) | Failed(status: nat, error: string)

  const LocationRequired: string := "Location is required"
  const FetchFailed: string := "Failed to fetch moongazing data"
  const FallbackZone: string := "America/Chicago"

  /** `if (!location)`: only a missing or empty location is refused; whitespace passes. */
  predicate HasLocation(location: Option<string>)
  {
    location.Some? && location.value != ""
  }

  /** `getTimezone` given the lookup's outcome: `None` when the response is
      not 2xx, otherwise the `zoneName` it carries, if any. */
  function ResolveTimezone(lookup: Option<Option<string>>): (zone: string)
    ensures zone != ""
    ensures lookup.Some? && lookup.value.Some? && lookup.value.value != "" ==> zone == lookup.value.value
    ensures lookup.None? || lookup.value.None? || lookup.value.value == "" ==> zone == FallbackZone
  {
    match lookup
    case None => FallbackZone
    case Some(zoneName) =>
      if zoneName.Some? && zoneName.value != "" then zoneName.value else FallbackZone
  }

  /** Astrospheric first; on any failure, Open-Meteo, whose failure is final. */
  function ChooseForecast(primary: Result<RawForecast>, secondary: Result<RawForecast>): (r: Result<(RawForecast, Provider)>)
    ensures primary.Ok? ==> r == Ok((primary.value, Astrospheric))
    ensures primary.Err? && secondary.Ok? ==> r == Ok((secondary.value, OpenMeteo))
    ensures r.Err? <==> primary.Err? && secondary.Err?
  {
    if primary.Ok? then Ok((primary.value, Astrospheric))
    else if secondary.Ok? then Ok((secondary.value, OpenMeteo))
    else Err(secondary.message)
  }

  /** The sky response used for one window: the provider's own when the
      forecast came from Astrospheric and its sky call succeeded, the local
      fallback otherwise. */
  function ChooseSky(provider: Provider, astrospheric: Result<SkyReport>, fallback: SkyReport): (sky: SkyReport)
    ensures provider == Astrospheric && astrospheric.Ok? ==> sky == astrospheric.value
    ensures provider == OpenMeteo || astrospheric.Err? ==> sky == fallback
  {
    if provider == Astrospheric && astrospheric.Ok? then astrospheric.value else fallback
  }

  /** The outside world the handler consults, as outcomes. */
  datatype World = World(
    geocode: Result<Place>,
    timezoneLookup: Option<Option<string>>,
    astrosphericForecast: Result<RawForecast>,
    openMeteoForecast: Result<RawForecast>,
    hourOf: int -> int,
    astrosphericSky: (int, string) -> Result<SkyReport>,
    moonPhaseDegrees: int -> real,
    catalog: seq<BrightStar>)

  /** How the fallback snapshot reads the phase routine's angle. `AsWritten`
      passes the angle on unchanged as the phase fraction, as lines 207-208
      do; `Corrected` divides it by 360 first. */
  datatype PhaseReading = AsWritten | Corrected

  /** The fallback snapshot at instant `t`. */
  function FallbackAt(world: World, reading: PhaseReading, t: int): (sky: SkyReport)
    ensures sky.moon.Some? && sky.moon.value.phase.Some? && sky.moon.value.illumination.Some?
    ensures reading == AsWritten ==> sky.moon.value.phase.value == MoonPhaseName(world.moonPhaseDegrees(t))
    ensures reading == Corrected ==> sky.moon.value.phase.value == MoonPhaseName(PhaseFraction(world.moonPhaseDegrees(t)))
    ensures reading == Corrected && 0.0 <= world.moonPhaseDegrees(t) < 360.0 ==>
      0.0 <= sky.moon.value.illumination.value <= 100.0
    ensures sky.planets == Some(PlaceholderPlanets)
    ensures sky.stars == Some(Names(FallbackStars(world.catalog)))
  {
    match reading
    case AsWritten => FallbackSky(world.moonPhaseDegrees(t), world.catalog)
    case Corrected => FallbackSkyFromDegrees(world.moonPhaseDegrees(t), world.catalog)
  }

  /** Sky data for one window, looked up at its midpoint. */
  function SkyFor(world: World, reading: PhaseReading, provider: Provider, zone: string, w: GroupedWindow): (sky: SkyReport)
    ensures var t := LookupInstant(Midpoint(w));
      && (provider == Astrospheric && world.astrosphericSky(t, zone).Ok? ==> sky == world.astrosphericSky(t, zone).value)
      && (provider == OpenMeteo || world.astrosphericSky(t, zone).Err? ==> sky == FallbackAt(world, reading, t))
  {
    var t := LookupInstant(Midpoint(w));
    ChooseSky(provider, world.astrosphericSky(t, zone), FallbackAt(world, reading, t))
  }

  /** The ranked windows of the hourly arrays, before sky data is attached. */
  function RankedWindows(h: HourlyData, hourOf: int -> int): seq<GroupedWindow>
  {
    GroupTimeWindows(BulkPass(h, hourOf))
  }

  /** Steps 4 and 5 on an unwrapped forecast: read the arrays, which can
      throw, then score, group and rank. */
  function Ranked(env: Envelope, hourOf: int -> int): (r: Result<seq<GroupedWindow>>)
    ensures r.Err? <==> ReadArrays(env.Hourly()).Err?
    ensures r.Ok? ==> r.value == GroupTimeWindows(BulkPass(ReadArrays(env.Hourly()).value, hourOf))
  {
    match ReadArrays(env.Hourly())
    case Err(e) => Err(e)
    case Ok(h) => Ok(RankedWindows(h, hourOf))
  }

  /** Step 6: one response entry per ranked window, in ranked order. */
  function EnrichAll(world: World, reading: PhaseReading, provider: Provider, zone: string, ranked: seq<GroupedWindow>): (out: seq<ScoredWindow>)
    requires forall k :: 0 <= k < |ranked| ==> |ranked[k].slots| > 0
    ensures |out| == |ranked|
    ensures forall k :: 0 <= k < |out| ==>
      out[k].start == ranked[k].startTime && out[k].end == ranked[k].endTime
    ensures forall k :: 0 <= k < |out| ==>
      out[k] == EnrichWindow(ranked[k], SkyFor(world, reading, provider, zone, ranked[k]))
  {
    seq(|ranked|, k requires 0 <= k < |ranked| =>
      EnrichWindow(ranked[k], SkyFor(world, reading, provider, zone, ranked[k])))
  }

  /** The handler: validate, geocode, resolve the time zone, fetch and unwrap
      the forecast, read its arrays, score and group, then enrich each window.
      With `AsWritten` this is the code as it stands. Every exception inside
      the `try` block becomes the generic 500. */
  function Post(location: Option<string>, world: World, reading: PhaseReading): (r: Response)
    ensures !HasLocation(location) ==> r == Failed(400, LocationRequired)
    ensures r.Failed? <==>
      (!HasLocation(location) ||
       world.geocode.Err? ||
       ChooseForecast(world.astrosphericForecast, world.openMeteoForecast).Err? ||
       Unwrap(ChooseForecast(world.astrosphericForecast, world.openMeteoForecast).value.0).Err? ||
       Ranked(Unwrap(ChooseForecast(world.astrosphericForecast, world.openMeteoForecast).value.0).value, world.hourOf).Err?)
    ensures r.Failed? && HasLocation(location) ==> r == Failed(500, FetchFailed)
    ensures r.Found? ==> r.location == world.geocode.value.name && |r.windows| <= MaxWindows
    ensures r.Found? ==>
      var (raw, provider) := ChooseForecast(world.astrosphericForecast, world.openMeteoForecast).value;
      r.windows == EnrichAll(world, reading, provider, ResolveTimezone(world.timezoneLookup),
                             Ranked(Unwrap(raw).value, world.hourOf).value)
  {
    if !HasLocation(location) then Failed(400, LocationRequired)
    else if world.geocode.Err? then Failed(500, FetchFailed)
    else
      var zone := ResolveTimezone(world.timezoneLookup);
      var chosen := ChooseForecast(world.astrosphericForecast, world.openMeteoForecast);
      if chosen.Err? then Failed(500, FetchFailed)
      else
        var (raw, provider) := chosen.value;
        match Unwrap(raw)
        case Err(_) => Failed(500, FetchFailed)
        case Ok(env) =>
          match Ranked(env, world.hourOf)
          case Err(_) => Failed(500, FetchFailed)
          case Ok(ranked) =>
            Found(world.geocode.value.name, EnrichAll(world, reading, provider, zone, ranked))
  }

  /** How the phase angle is read changes only the moon data: both readings
      fail alike, and otherwise return the same windows with the same times
      and weather. */
  lemma ReadingOnlyChangesMoon(location: Option<string>, world: World)
    ensures Post(location, world, AsWritten).Failed? <==> Post(location, world, Corrected).Failed?
    ensures Post(location, world, AsWritten).Failed? ==> Post(location, world, AsWritten) == Post(location, world, Corrected)
    ensures Post(location, world, AsWritten).Found? ==>
      var a, c := Post(location, world, AsWritten), Post(location, world, Corrected);
      a.location == c.location && |a.windows| == |c.windows| &&
      forall k :: 0 <= k < |a.windows| ==>
        a.windows[k].start == c.windows[k].start && a.windows[k].end == c.windows[k].end &&
        a.windows[k].weather == c.windows[k].weather
  {
    var chosen := ChooseForecast(world.astrosphericForecast, world.openMeteoForecast);
    if HasLocation(location) && world.geocode.Ok? && chosen.Ok? && Unwrap(chosen.value.0).Ok? {
      var ranked := Ranked(Unwrap(chosen.value.0).value, world.hourOf);
      if ranked.Ok? {
        EnrichAllReadingOnlyChangesMoon(world, chosen.value.1, ResolveTimezone(world.timezoneLookup), ranked.value);
      }
    }
  }

  /** The phase reading changes no entry's times or weather. */
  lemma EnrichAllReadingOnlyChangesMoon(world: World, provider: Provider, zone: string, ranked: seq<GroupedWindow>)
    requires forall k :: 0 <= k < |ranked| ==> |ranked[k].slots| > 0
    ensures |EnrichAll(world, AsWritten, provider, zone, ranked)| == |EnrichAll(world, Corrected, provider, zone, ranked)|
    ensures forall k :: 0 <= k < |ranked| ==>
      var a, c := EnrichAll(world, AsWritten, provider, zone, ranked)[k], EnrichAll(world, Corrected, provider, zone, ranked)[k];
      a.start == c.start && a.end == c.end && a.weather == c.weather
  {
  }

  /** On the Open-Meteo path every window takes the fallback snapshot. At a
      full moon (180 degrees) the code as written reports a dark Waning
      Crescent with Low impact; the corrected reading reports a fully lit Full
      Moon with High impact. */
  lemma OpenMeteoFullMoonMisreported(world: World, zone: string, w: GroupedWindow)
    requires ValidWindow(w)
    requires world.moonPhaseDegrees(LookupInstant(Midpoint(w))) == 180.0
    ensures EnrichWindow(w, SkyFor(world, AsWritten, OpenMeteo, zone, w)).moon == MoonData("Waning Crescent", -35800.0, Low)
    ensures EnrichWindow(w, SkyFor(world, Corrected, OpenMeteo, zone, w)).moon == MoonData("Full Moon", 100.0, High)
  {
    FullMoonInDegreesMisread(world.catalog);
    PhaseAnglesCorrected(world.catalog);
  }

  /** When no night hour of the chosen forecast has cloud cover of 40% or
      less, the answer is a normal response with no windows, not an error. */
  lemma NoClearNightIsNotAnError(location: Option<string>, world: World, reading: PhaseReading, env: Envelope, h: HourlyData)
    requires HasLocation(location) && world.geocode.Ok?
    requires ChooseForecast(world.astrosphericForecast, world.openMeteoForecast).Ok?
    requires Unwrap(ChooseForecast(world.astrosphericForecast, world.openMeteoForecast).value.0) == Ok(env)
    requires ReadArrays(env.Hourly()) == Ok(h)
    requires forall j :: 0 <= j < |h.time| && IsNightHour(world.hourOf(h.time[j])) ==>
      SlotAt(h, j).cloudCover > 40.0
    ensures Post(location, world, reading) == Found(world.geocode.value.name, [])
  {
    NoGoodSlot(h, world.hourOf);
    assert Groups([]) == [];
  }

  /** Night hours all above 40% cloud leave no good slot. */
  lemma NoGoodSlot(h: HourlyData, hourOf: int -> int)
    requires forall j :: 0 <= j < |h.time| && IsNightHour(hourOf(h.time[j])) ==>
      SlotAt(h, j).cloudCover > 40.0
    ensures GoodSlots(BulkPass(h, hourOf)) == []
  {
    var slots := BulkPass(h, hourOf);
    var good := GoodSlots(slots);
    if |good| > 0 {
      SubsequenceMembers(good, slots);
      SubsequenceMembers(slots, AllSlots(h));
      assert false;
    }
  }

  /** Which provider answered does not matter to scoring: the same hourly
      value gives the same ranked windows, or the same failure, in either envelope. */
  lemma ProviderIndependentScoring(v: HourlyValue, hourOf: int -> int)
    ensures Ranked(Unwrap(RawForecast(Some(v), None)).value, hourOf) ==
            Ranked(Unwrap(RawForecast(None, Some(v))).value, hourOf)
  {
    UnwrapShapeIndependent(v);
  }
}

=== FILE: public_id.dfy ===
/** `extractPublicIdFromUrl`: the public id of an image from its delivery URL,
    as the pattern `/\/v\d+\/(.+)\.(jpg|jpeg|png|gif|webp|svg)$/i` captures it. */
module PublicId {
  import opened Wrappers
  import opened Text

  /** The extension alternatives, in the pattern's order. */
  const Extensions: seq<string> := ["jpg", "jpeg", "png", "gif", "webp", "svg"]

  /** Case folding under the `i` flag. The pattern's letters are ASCII, and
      no character outside ASCII folds onto an ASCII one, so folding ASCII
      upper case is enough. */
  function Fold(c: char): char
  {
    if 'A' <= c <= 'Z' then (c as int + 32) as char else c
  }

  function FoldAll(s: string): (r: string)
    ensures |r| == |s|
    ensures forall k :: 0 <= k < |s| ==> r[k] == Fold(s[k])
  {
    seq(|s|, k requires 0 <= k < |s| => Fold(s[k]))
  }

  /** One of the six extensions, in any letter case. */
  predicate IsImageExtension(ext: string)
  {
    FoldAll(ext) in Extensions
  }

  /** What `.` refuses to match without the `s` flag. */
  predicate IsLineTerminator(c: char)
  {
    c == '\n' || c == '\r' || c as int == 0x2028 || c as int == 0x2029
  }

  predicate NoLineTerminator(s: string)
  {
    forall k :: 0 <= k < |s| ==> !IsLineTerminator(s[k])
  }

  /** The pattern's `v`, either case. */
  predicate IsV(c: char)
  {
    c == 'v' || c == 'V'
  }

  /** The shape of a match: `pre` is the text before the match, `v` the
      version letter, `digits` the version number, `id` the captured group
      and `ext` the extension that ends the URL. */
  predicate Decomposes(url: string, pre: string, v: char, digits: string, id: string, ext: string)
  {
    && url == pre + ['/', v] + digits + ['/'] + id + ['.'] + ext
    && IsV(v)
    && |digits| > 0 && AllDigits(digits)
    && |id| > 0 && NoLineTerminator(id)
    && IsImageExtension(ext)
  }

  /** None of the extensions contains a dot. */
  lemma ExtensionsDotFree()
    ensures forall e, k :: e in Extensions && 0 <= k < |e| ==> e[k] != '.'
  {
  }

  /** The URL ends with a dot and then `e`, folded. */
  predicate EndsWith(url: string, e: string)
  {
    |url| > |e| && url[|url| - |e| - 1] == '.' && FoldAll(url[|url| - |e|..]) == e
  }

  /** The first of `exts` the URL ends with, as the alternation tries them. */
  function EndingExtension(url: string, exts: seq<string>): (r: Option<string>)
    ensures r.Some? ==> r.value in exts && EndsWith(url, r.value)
  {
    if |exts| == 0 then None
    else if EndsWith(url, exts[0]) then Some(exts[0])
    else EndingExtension(url, exts[1..])
  }

  /** A URL ends with `.ext` for at most one extension length: a shorter
      candidate would put its dot inside the longer extension. */
  lemma EndingUnique(url: string, e1: string, e2: string)
    requires e1 in Extensions && EndsWith(url, e1)
    requires e2 in Extensions && EndsWith(url, e2)
    ensures e1 == e2
  {
    ExtensionsDotFree();
  }

  lemma {:induction false} EndingExtensionFinds(url: string, exts: seq<string>, e: string)
    requires e in exts && EndsWith(url, e)
    requires forall x :: x in exts ==> x in Extensions
    ensures EndingExtension(url, exts) == Some(e)
  {
    if EndsWith(url, exts[0]) {
      EndingUnique(url, e, exts[0]);
    } else {
      EndingExtensionFinds(url, exts[1..], e);
    }
  }

  /** How many digits run from position `p`. */
  function DigitRun(url: string, p: nat): (k: nat)
    requires p <= |url|
    ensures p + k <= |url|
    ensures AllDigits(url[p..p + k])
    ensures p + k < |url| ==> !IsDigit(url[p + k])
    decreases |url| - p
  {
    if p < |url| && IsDigit(url[p]) then
      var k := DigitRun(url, p + 1);
      assert url[p..p + 1 + k] == [url[p]] + url[p + 1..p + 1 + k];
      1 + k
    else 0
  }

  /** Digits followed by a non-digit are exactly the run that `DigitRun` measures. */
  lemma DigitRunExact(url: string, p: nat, k: nat)
    requires p + k < |url| && AllDigits(url[p..p + k]) && !IsDigit(url[p + k])
    ensures DigitRun(url, p) == k
  {
  }

  /** The pattern tried at position `i`, with the extension's dot at `dot`:
      greedy `\d+` can only stop at the end of the digit run, and greedy
      `.+` can only stop at the one dot `\.(ext)$` accepts. */
  function MatchAt(url: string, i: nat, dot: nat): Option<string>
    requires dot < |url|
  {
    if i + 1 < |url| && url[i] == '/' && IsV(url[i + 1]) then
      var k := DigitRun(url, i + 2);
      var j := i + 3 + k;
      if k > 0 && i + 2 + k < |url| && url[i + 2 + k] == '/' && j < dot && NoLineTerminator(url[j..dot]) then
        Some(url[j..dot])
      else None
    else None
  }

  /** The regular-expression engine's scan: the leftmost position from `i` on where the pattern matches. */
  function Search(url: string, dot: nat, i: nat): (r: Option<(nat, string)>)
    requires dot < |url|
    ensures r.Some? ==> i <= r.value.0 < |url| && MatchAt(url, r.value.0, dot) == Some(r.value.1)
    ensures r.Some? ==> forall p :: i <= p < r.value.0 ==> MatchAt(url, p, dot).None?
    ensures r.None? ==> forall p :: i <= p < |url| ==> MatchAt(url, p, dot).None?
    decreases |url| - i
  {
    if i >= |url| then None
    else
      match MatchAt(url, i, dot)
      case Some(id) => Some((i, id))
      case None => Search(url, dot, i + 1)
  }

  /** Where the match starts and what it captures, if the URL matches. */
  function Locate(url: string): Option<(nat, string)>
  {
    match EndingExtension(url, Extensions)
    case None => None
    case Some(e) => Search(url, |url| - |e| - 1, 0)
  }

  /** `extractPublicIdFromUrl`: the captured group, or null. It cannot throw. */
  function ExtractPublicIdFromUrl(url: string): (id: Option<string>)
    ensures id.Some? ==> |id.value| > 0 && NoLineTerminator(id.value)
  {
    match Locate(url)
    case None => None
    case Some((_, captured)) => Some(captured)
  }

  /** A sequence is the concatenation of its pieces between ascending cuts. */
  lemma Reassemble(s: string, a: nat, b: nat, c: nat, d: nat)
    requires a <= b <= c <= d <= |s|
    ensures s[..d] == s[..a] + s[a..b] + s[b..c] + s[c..d]
  {
    assert s[..b] == s[..a] + s[a..b];
    assert s[..c] == s[..b] + s[b..c];
    assert s[..d] == s[..c] + s[c..d];
  }

  /** What a successful match at `i` consists of, up to the dot. */
  lemma MatchShape(url: string, i: nat, dot: nat) returns (v: char, digits: string, id: string)
    requires dot < |url| && MatchAt(url, i, dot).Some?
    ensures MatchAt(url, i, dot) == Some(id)
    ensures url[..dot] == url[..i] + ['/', v] + digits + ['/'] + id
    ensures IsV(v) && |digits| > 0 && AllDigits(digits) && |id| > 0 && NoLineTerminator(id)
  {
    var k := DigitRun(url, i + 2);
    var j := i + 3 + k;
    v, digits, id := url[i + 1], url[i + 2..i + 2 + k], url[j..dot];
    Reassemble(url, i, i + 2, i + 2 + k, j);
    assert url[..dot] == url[..j] + url[j..dot];
    assert url[i..i + 2] == ['/', v];
    assert url[i + 2 + k..j] == ['/'];
  }

  /** An image extension has no dot, since folding leaves dots alone. */
  lemma ImageExtensionDotFree(ext: string)
    requires IsImageExtension(ext)
    ensures forall k :: 0 <= k < |ext| ==> ext[k] != '.'
  {
    ExtensionsDotFree();
    forall k | 0 <= k < |ext|
      ensures ext[k] != '.'
    {
      assert FoldAll(ext)[k] == Fold(ext[k]);
    }
  }

  lemma SplitAtDot(url: string, dot: nat)
    requires dot < |url| && url[dot] == '.'
    ensures url == url[..dot] + ['.'] + url[dot + 1..]
  {
    assert url == url[..dot] + url[dot..dot + 1] + url[dot + 1..];
  }

  /** Every id returned is the captured group of a genuine match, and it stops at the URL's last dot. */
  lemma ExtractSound(url: string) returns (pre: string, v: char, digits: string, ext: string)
    requires ExtractPublicIdFromUrl(url).Some?
    ensures Decomposes(url, pre, v, digits, ExtractPublicIdFromUrl(url).value, ext)
    ensures forall k :: 0 <= k < |ext| ==> ext[k] != '.'
  {
    var e := EndingExtension(url, Extensions).value;
    var dot := |url| - |e| - 1;
    var i := Locate(url).value.0;
    var id;
    v, digits, id := MatchShape(url, i, dot);
    pre, ext := url[..i], url[dot + 1..];
    SplitAtDot(url, dot);
    assert FoldAll(ext) == e;
    ImageExtensionDotFree(ext);
  }

  /** The pieces of a decomposition, read back as positions in the URL. */
  lemma DecompositionPositions(url: string, pre: string, v: char, digits: string, id: string, ext: string)
    requires url == pre + ['/', v] + digits + ['/'] + id + ['.'] + ext
    ensures var i, k := |pre|, |digits|;
      && |url| == i + 4 + k + |id| + |ext|
      && url[i] == '/' && url[i + 1] == v
      && url[i + 2..i + 2 + k] == digits && url[i + 2 + k] == '/'
      && url[i + 3 + k..i + 3 + k + |id|] == id
      && url[i + 3 + k + |id|] == '.'
      && url[i + 4 + k + |id|..] == ext
  {
    var a := pre + ['/', v];
    var b := a + digits;
    var c := b + ['/'];
    var d := c + id;
    var e := d + ['.'];
    assert url == e + ext;
    assert url[..|e|] == e && url[|e|..] == ext;
    assert e[..|d|] == d;
    assert d[..|c|] == c && d[|c|..] == id;
    assert c[..|b|] == b;
    assert b[..|a|] == a && b[|a|..] == digits;
    assert url[|c|..|d|] == d[|c|..];
    assert url[|a|..|b|] == b[|a|..];
  }

  /** The pattern matches at `i` when the pieces sit at the right positions. */
  lemma MatchAtPositions(url: string, i: nat, k: nat, dot: nat)
    requires dot < |url| && i + 3 + k < dot
    requires url[i] == '/' && IsV(url[i + 1]) && url[i + 2 + k] == '/'
    requires k > 0 && AllDigits(url[i + 2..i + 2 + k]) && NoLineTerminator(url[i + 3 + k..dot])
    ensures MatchAt(url, i, dot) == Some(url[i + 3 + k..dot])
  {
    DigitRunExact(url, i + 2, k);
  }

  /** A match at `i` before the dot of the URL's extension bounds the scan's answer. */
  lemma FoundBy(url: string, e: string, i: nat, id: string)
    requires e in Extensions && EndsWith(url, e)
    requires MatchAt(url, i, |url| - |e| - 1) == Some(id)
    ensures Locate(url).Some? && Locate(url).value.0 <= i
    ensures Locate(url).value.0 == i ==> ExtractPublicIdFromUrl(url) == Some(id)
  {
    EndingExtensionFinds(url, Extensions, e);
    var dot := |url| - |e| - 1;
    assert Locate(url) == Search(url, dot, 0);
  }

  /** Every match is found: the URL yields an id, the match used starts no
      later than this one, and one starting here captures exactly `id`. */
  lemma ExtractComplete(url: string, pre: string, v: char, digits: string, id: string, ext: string)
    requires Decomposes(url, pre, v, digits, id, ext)
    ensures ExtractPublicIdFromUrl(url).Some?
    ensures Locate(url).Some? && Locate(url).value.0 <= |pre|
    ensures Locate(url).value.0 == |pre| ==> ExtractPublicIdFromUrl(url) == Some(id)
  {
    var i, k := |pre|, |digits|;
    var dot := i + 3 + k + |id|;
    DecompositionPositions(url, pre, v, digits, id, ext);
    var e := FoldAll(ext);
    assert EndsWith(url, e);
    MatchAtPositions(url, i, k, dot);
    FoundBy(url, e, i, id);
  }

  /** A URL without an image extension at its end yields no id. */
  lemma NoExtensionNoId(url: string)
    requires forall e :: e in Extensions ==> !EndsWith(url, e)
    ensures ExtractPublicIdFromUrl(url).None?
  {
  }

  /** A worked case: the capture runs to the last dot, so the id keeps its own dots. */
  lemma GreedyIdExample()
    ensures ExtractPublicIdFromUrl("/v12/sky/moon.night.JPG") == Some("sky/moon.night")
  {
    GreedyIdShape();
    ExtractComplete("/v12/sky/moon.night.JPG", "", 'v', "12", "sky/moon.night", "JPG");
  }

  lemma GreedyIdShape()
    ensures Decomposes("/v12/sky/moon.night.JPG", "", 'v', "12", "sky/moon.night", "JPG")
  {
    assert "/v12/sky/moon.night.JPG" == "" + ['/', 'v'] + "12" + ['/'] + "sky/moon.night" + ['.'] + "JPG";
    assert FoldAll("JPG") == "jpg";
  }
}

=== FILE: scoring.dfy ===
/** Per-hour visibility score and the two moon classifiers of the window engine. */
module Scoring {
  import opened Numeric

  /** Score from which an hour counts as good. */
  const GoodScore: real := 0.6

  /** Deduction applied when a bright moon is up. */
  const MoonPenalty: real := 0.2

  /** Illumination percentage from which the moon counts as bright. */
  const BrightMoon: real := 60.0

  /** Illumination percentage from which the moon has some impact. */
  const DimMoon: real := 30.0

  /** The deduction `scoreTimeSlot` makes for the moon. */
  function PenaltyFor(moonIllumination: real, moonVisible: bool): (p: real)
    ensures p == MoonPenalty <==> moonVisible && moonIllumination >= BrightMoon
    ensures p == 0.0 <==> !(moonVisible && moonIllumination >= BrightMoon)
  {
    if moonVisible && moonIllumination >= BrightMoon then MoonPenalty else 0.0
  }

  /** `scoreTimeSlot`: one minus the cloud fraction, less the moon penalty,
      floored at zero. */
  function ScoreTimeSlot(cloudCover: real, moonIllumination: real, moonVisible: bool): (score: real)
    ensures score >= 0.0
    ensures cloudCover >= 0.0 ==> score <= 1.0
    ensures score >= 1.0 - cloudCover / 100.0 - PenaltyFor(moonIllumination, moonVisible)
    ensures score == 0.0 || score == 1.0 - cloudCover / 100.0 - PenaltyFor(moonIllumination, moonVisible)
  {
    var clear := 1.0 - cloudCover / 100.0;
    var penalised := if moonVisible && moonIllumination >= BrightMoon then clear - MoonPenalty else clear;
    Max0(penalised)
  }

  /** More cloud never raises the score when the moon inputs are fixed. */
  lemma ScoreMonotoneInCloud(c1: real, c2: real, moonIllumination: real, moonVisible: bool)
    requires c1 <= c2
    ensures ScoreTimeSlot(c2, moonIllumination, moonVisible) <= ScoreTimeSlot(c1, moonIllumination, moonVisible)
  {
  }

  /** A visible bright moon never raises the score. */
  lemma MoonNeverHelps(cloudCover: real, moonIllumination: real, moonVisible: bool)
    ensures ScoreTimeSlot(cloudCover, moonIllumination, moonVisible) <= ScoreTimeSlot(cloudCover, 0.0, false)
  {
  }

  /** The score the bulk pass assigns: the moon inputs are the placeholders
      `(0, false)`, so the penalty never applies. */
  function BaseScore(cloudCover: real): (score: real)
    ensures score == Max0(1.0 - cloudCover / 100.0)
  {
    ScoreTimeSlot(cloudCover, 0.0, false)
  }

  /** With placeholder moon inputs an hour is good exactly when its cloud cover is at most 40%. */
  lemma BaseScoreGoodIff(cloudCover: real)
    ensures BaseScore(cloudCover) >= GoodScore <==> cloudCover <= 40.0
  {
  }

  /** The moon's effect on viewing, as `getMoonImpact` reports it. */
  datatype Impact = Low | Medium | High {
    /** Position in the order Low < Medium < High. */
    function Rank(): nat
    {
      match this
      case Low => 0
      case Medium => 1
      case High => 2
    }
  }

  /** `getMoonImpact`. */
  function MoonImpact(illumination: real, isVisible: bool): (impact: Impact)
    ensures impact == Low <==> !isVisible || illumination < DimMoon
    ensures impact == Medium <==> isVisible && DimMoon <= illumination < BrightMoon
    ensures impact == High <==> isVisible && illumination >= BrightMoon
  {
    if !isVisible || illumination < 30.0 then Low
    else if illumination < 60.0 then Medium
    else High
  }

  /** A brighter visible moon never has a lower impact. */
  lemma MoonImpactMonotone(i1: real, i2: real, isVisible: bool)
    requires i1 <= i2
    ensures MoonImpact(i1, isVisible).Rank() <= MoonImpact(i2, isVisible).Rank()
  {
  }

  /** The score penalty fires exactly for the moon states reported as High impact. */
  lemma PenaltyIffHighImpact(illumination: real, isVisible: bool)
    ensures PenaltyFor(illumination, isVisible) > 0.0 <==> MoonImpact(illumination, isVisible) == High
  {
  }

  /** Upper bounds of the first seven phase buckets: the odd sixteenths. */
  const PhaseBoundaries: seq<real> := [0.0625, 0.1875, 0.3125, 0.4375, 0.5625, 0.6875, 0.8125]

  /** The eight names `getMoonPhaseName` returns, in bucket order. */
  const PhaseNames: seq<string> := [
    "New Moon", "Waxing Crescent", "First Quarter", "Waxing Gibbous",
    "Full Moon", "Waning Gibbous", "Last Quarter", "Waning Crescent"
  ]

  /** The bucket `k` of phase `p`: above the previous boundary (if any) and
      below the next one (if any). */
  predicate InBucket(p: real, k: nat)
    requires k < 8
  {
    (k == 0 || PhaseBoundaries[k - 1] <= p) && (k == 7 || p < PhaseBoundaries[k])
  }

  /** Which of the eight buckets `getMoonPhaseName` puts `phase` in. */
  function PhaseBucket(phase: real): (k: nat)
    ensures k < 8 && InBucket(phase, k)
  {
    if phase < 0.0625 then 0
    else if phase < 0.1875 then 1
    else if phase < 0.3125 then 2
    else if phase < 0.4375 then 3
    else if phase < 0.5625 then 4
    else if phase < 0.6875 then 5
    else if phase < 0.8125 then 6
    else 7
  }

  /** `getMoonPhaseName`: total, one name per bucket. */
  function MoonPhaseName(phase: real): (name: string)
    ensures name in PhaseNames
    ensures name == PhaseNames[PhaseBucket(phase)]
  {
    PhaseNames[PhaseBucket(phase)]
  }

  /** The boundaries are the odd sixteenths `(2k + 1) / 16`. */
  lemma BoundariesAreOddSixteenths()
    ensures forall k :: 0 <= k < 7 ==> PhaseBoundaries[k] == (2 * k + 1) as real / 16.0
  {
  }

  /** The buckets do not overlap: a phase lies in exactly one of them. */
  lemma {:induction false} BucketsDisjoint(p: real, k: nat)
    requires k < 8 && InBucket(p, k)
    ensures k == PhaseBucket(p)
  {
    var b := PhaseBucket(p);
    if k < b {
      BoundariesIncreasing(k, b - 1);
    } else if b < k {
      BoundariesIncreasing(b, k - 1);
    }
  }

  lemma BoundariesIncreasing(i: nat, j: nat)
    requires i <= j < 7
    ensures PhaseBoundaries[i] <= PhaseBoundaries[j]
  {
  }

  /** The bucket index never decreases as the phase grows. */
  lemma PhaseBucketMonotone(p: real, q: real)
    requires p <= q
    ensures PhaseBucket(p) <= PhaseBucket(q)
  {
  }

  /** Distinct buckets carry distinct names, so the name identifies the bucket. */
  lemma PhaseNameIdentifiesBucket(p: real, q: real)
    ensures MoonPhaseName(p) == MoonPhaseName(q) <==> PhaseBucket(p) == PhaseBucket(q)
  {
  }
}

=== FILE: seqs.dfy ===
/** Order-preserving sequence operations: `Array.prototype.filter` and `slice(0, n)`. */
module Seqs {

  /** `a` is obtained from `b` by deleting elements, keeping the order of the rest. */
  predicate IsSubsequence<T(==)>(a: seq<T>, b: seq<T>)
    decreases |b|
  {
    if |a| == 0 then true
    else if |b| == 0 then false
    else (a[0] == b[0] && IsSubsequence(a[1..], b[1..])) || IsSubsequence(a, b[1..])
  }

  /** Every element of a subsequence is an element of the whole. */
  lemma {:induction false} SubsequenceMembers<T>(a: seq<T>, b: seq<T>)
    requires IsSubsequence(a, b)
    ensures forall k :: 0 <= k < |a| ==> a[k] in b
    decreases |b|
  {
    if |a| > 0 {
      if a[0] == b[0] && IsSubsequence(a[1..], b[1..]) {
        SubsequenceMembers(a[1..], b[1..]);
        assert forall k :: 1 <= k < |a| ==> a[k] == a[1..][k - 1];
      } else {
        SubsequenceMembers(a, b[1..]);
      }
    }
  }

  /** `s.filter(p)`: the elements satisfying `p`, in their original order. */
  function Filter<T(==,!new)>(p: T -> bool, s: seq<T>): (r: seq<T>)
    ensures |r| <= |s|
    ensures forall i :: 0 <= i < |r| ==> r[i] in s && p(r[i])
    ensures forall i :: 0 <= i < |s| && p(s[i]) ==> s[i] in r
    ensures IsSubsequence(r, s)
  {
    if |s| == 0 then []
    else if p(s[0]) then [s[0]] + Filter(p, s[1..])
    else Filter(p, s[1..])
  }

  /** The filter keeps every copy of a kept value and none of a dropped one. */
  lemma {:induction false} FilterCounts<T(!new)>(p: T -> bool, s: seq<T>)
    ensures forall x :: multiset(Filter(p, s))[x] == if p(x) then multiset(s)[x] else 0
  {
    if |s| > 0 {
      FilterCounts(p, s[1..]);
      assert s == [s[0]] + s[1..];
    }
  }

  /** Filtering a sequence with one more element at the end filters that element last. */
  lemma {:induction false} FilterSnoc<T(!new)>(p: T -> bool, s: seq<T>, x: T)
    ensures Filter(p, s + [x]) == Filter(p, s) + (if p(x) then [x] else [])
    decreases |s|
  {
    var t := s + [x];
    if |s| == 0 {
      assert t == [x] && t[1..] == [];
    } else {
      assert t[0] == s[0] && t[1..] == s[1..] + [x];
      FilterSnoc(p, s[1..], x);
      var tail: seq<T> := if p(x) then [x] else [];
      if p(s[0]) {
        assert Filter(p, t) == [s[0]] + Filter(p, t[1..]);
        assert Filter(p, s) == [s[0]] + Filter(p, s[1..]);
        AppendAssoc([s[0]], Filter(p, s[1..]), tail);
      } else {
        assert Filter(p, t) == Filter(p, t[1..]);
        assert Filter(p, s) == Filter(p, s[1..]);
      }
    }
  }

  /** Concatenation regroups freely. */
  lemma AppendAssoc<T>(a: seq<T>, b: seq<T>, c: seq<T>)
    ensures a + (b + c) == (a + b) + c
  {
  }

  /** `s.slice(0, n)`: the first `n` elements, or all of them when there are fewer. */
  function Take<T>(s: seq<T>, n: nat): (r: seq<T>)
    ensures |r| == if |s| <= n then |s| else n
    ensures r == s[..|r|]
  {
    if |s| <= n then s else s[..n]
  }

  /** A prefix of a subsequence is still a subsequence. */
  lemma {:induction false} SubsequencePrefix<T>(a: seq<T>, b: seq<T>, n: nat)
    requires IsSubsequence(a, b) && n <= |a|
    ensures IsSubsequence(a[..n], b)
    decreases |b|
  {
    if n > 0 {
      if a[0] == b[0] && IsSubsequence(a[1..], b[1..]) {
        SubsequencePrefix(a[1..], b[1..], n - 1);
        assert a[..n][1..] == a[1..][..n - 1];
      } else {
        SubsequencePrefix(a, b[1..], n);
      }
    }
  }
}

=== FILE: sky.dfy ===
/** `getFallbackSkyData`: the locally computed sky snapshot used when the
    astronomy provider is unavailable. */
module Sky {
  import opened Wrappers
  import opened Numeric
  import opened Seqs
  import opened Scoring

  /** One row of the bright-star catalog. */
  datatype BrightStar = BrightStar(name: string, ra: real, dec: real, mag: real)

  /** The `moon` object of a sky response; any field may be absent. */
  datatype MoonReport = MoonReport(phase: Option<string>, illumination: Option<real>, altitude: Option<real>)

  /** The fields of a sky response that the engine reads. */
  datatype SkyReport = SkyReport(moon: Option<MoonReport>, planets: Option<seq<string>>, stars: Option<seq<string>>)

  /** Faintest magnitude the fallback lists (smaller is brighter). */
  const BrightLimit: real := 2.0

  /** How many catalog stars the fallback lists. */
  const MaxFallbackStars: nat := 5

  const PlaceholderPlanets: seq<string> := ["Jupiter", "Saturn"]
  const PlaceholderAltitude: real := 45.0

  /** Illuminated percentage of the disc for a phase fraction, peaking at full moon. */
  function Illumination(phase: real): (pct: int)
    ensures 0.0 <= phase <= 1.0 ==> 0 <= pct <= 100
  {
    Round(100.0 * (1.0 - Abs(0.5 - phase) * 2.0))
  }

  /** New moon is dark, full moon is fully lit. */
  lemma IlluminationExtremes()
    ensures Illumination(0.0) == 0 && Illumination(1.0) == 0 && Illumination(0.5) == 100
  {
  }

  /** Waxing and waning phases equally far from full are equally lit. */
  lemma IlluminationSymmetric(phase: real)
    ensures Illumination(phase) == Illumination(1.0 - phase)
  {
    assert Abs(0.5 - phase) == Abs(0.5 - (1.0 - phase));
  }

  /** Illumination grows while the moon waxes towards full. */
  lemma IlluminationWaxing(p: real, q: real)
    requires 0.0 <= p <= q <= 0.5
    ensures Illumination(p) <= Illumination(q)
  {
    RoundMonotone(100.0 * (1.0 - Abs(0.5 - p) * 2.0), 100.0 * (1.0 - Abs(0.5 - q) * 2.0));
  }

  predicate IsBright(s: BrightStar)
  {
    s.mag <= BrightLimit
  }

  /** `filter(star => star.mag <= 2.0).slice(0, 5)`: the first five bright
      stars in catalog order, or all of them when there are fewer. */
  function FallbackStars(catalog: seq<BrightStar>): (r: seq<BrightStar>)
    ensures r <= Filter(IsBright, catalog)
    ensures |r| == if |Filter(IsBright, catalog)| <= MaxFallbackStars then |Filter(IsBright, catalog)| else MaxFallbackStars
    ensures |r| <= MaxFallbackStars
    ensures forall k :: 0 <= k < |r| ==> r[k].mag <= BrightLimit
    ensures IsSubsequence(r, catalog)
    ensures |r| < MaxFallbackStars ==>
      forall k :: 0 <= k < |catalog| && catalog[k].mag <= BrightLimit ==> catalog[k] in r
  {
    var bright := Filter(IsBright, catalog);
    var r := Take(bright, MaxFallbackStars);
    SubsequencePrefix(bright, catalog, |r|);
    r
  }

  function Names(stars: seq<BrightStar>): (names: seq<string>)
    ensures |names| == |stars|
    ensures forall k :: 0 <= k < |stars| ==> names[k] == stars[k].name
  {
    seq(|stars|, k requires 0 <= k < |stars| => stars[k].name)
  }

  /** The fallback snapshot for a moon phase given as a fraction of the
      lunation: phase name and illumination from the fraction, placeholder
      planets and altitude, and the first bright catalog stars. */
  function FallbackSky(phase: real, catalog: seq<BrightStar>): (sky: SkyReport)
    ensures sky.moon.Some? && sky.planets.Some? && sky.stars.Some?
    ensures sky.moon.value.phase == Some(MoonPhaseName(phase))
    ensures sky.moon.value.illumination == Some(Illumination(phase) as real)
    ensures 0.0 <= phase <= 1.0 ==> 0.0 <= sky.moon.value.illumination.value <= 100.0
    ensures sky.moon.value.altitude == Some(PlaceholderAltitude)
    ensures sky.planets.value == PlaceholderPlanets
    ensures sky.stars == Some(Names(FallbackStars(catalog)))
    ensures |sky.stars.value| <= MaxFallbackStars
  {
    SkyReport(
      Some(MoonReport(Some(MoonPhaseName(phase)), Some(Illumination(phase) as real), Some(PlaceholderAltitude))),
      Some(PlaceholderPlanets),
      Some(Names(FallbackStars(catalog))))
  }

  /** The phase routine the fallback calls reports an angle in degrees
      (0 new, 180 full), while `FallbackSky` expects a fraction. Fed a full
      moon as written, the fallback reports a negative illumination and the
      wrong phase name. */
  lemma FullMoonInDegreesMisread(catalog: seq<BrightStar>)
    ensures FallbackSky(180.0, catalog).moon.value.illumination == Some(-35800.0)
    ensures FallbackSky(180.0, catalog).moon.value.phase == Some("Waning Crescent")
  {
    RoundUnique(100.0 * (1.0 - Abs(0.5 - 180.0) * 2.0), -35800);
  }

  /** Degrees of the lunation as the fraction the fallback expects. */
  function PhaseFraction(degrees: real): (fraction: real)
    ensures 0.0 <= degrees < 360.0 ==> 0.0 <= fraction < 1.0
  {
    degrees / 360.0
  }

  /** The fallback snapshot for a phase angle in degrees. */
  function FallbackSkyFromDegrees(degrees: real, catalog: seq<BrightStar>): (sky: SkyReport)
    ensures sky.moon.Some? && sky.moon.value.illumination.Some?
    ensures 0.0 <= degrees < 360.0 ==> 0.0 <= sky.moon.value.illumination.value <= 100.0
  {
    FallbackSky(PhaseFraction(degrees), catalog)
  }

  /** With the angle converted, a full moon is reported as a fully lit Full Moon
      and a new moon as a dark New Moon. */
  lemma PhaseAnglesCorrected(catalog: seq<BrightStar>)
    ensures FallbackSkyFromDegrees(180.0, catalog).moon.value.illumination == Some(100.0)
    ensures FallbackSkyFromDegrees(180.0, catalog).moon.value.phase == Some("Full Moon")
    ensures FallbackSkyFromDegrees(0.0, catalog).moon.value.illumination == Some(0.0)
    ensures FallbackSkyFromDegrees(0.0, catalog).moon.value.phase == Some("New Moon")
  {
    IlluminationExtremes();
  }
}

=== FILE: text.dfy ===
/** Character classes shared by the string-handling parts of the model. */
module Text {

  /** `\d` in a JavaScript regular expression without the `u` flag: ASCII digits only. */
  predicate IsDigit(c: char)
  {
    '0' <= c <= '9'
  }

  predicate AllDigits(s: string)
  {
    forall k :: 0 <= k < |s| ==> IsDigit(s[k])
  }
}

=== FILE: weather_prefs.dfy ===
/** The display preferences of the weather context: temperature unit and
    clock format, their toggles, loading saved values, and temperature
    conversion and formatting. */
module WeatherPrefs {
  import opened Wrappers
  import opened Numeric
  import opened Text

  datatype TemperatureUnit = Celsius | Fahrenheit

  /** The unit in force before, and unless, a valid saved unit is loaded. */
  const DefaultTemperatureUnit: TemperatureUnit := Celsius

  /** The clock formats the toggle produces. A loaded format is whatever
      text was saved, so it is kept as a string. */
  const TwelveHour: string := "12hr"
  const TwentyFourHour: string := "24hr"
  const DefaultTimeFormat: string := TwelveHour

  function ToggleTemperatureUnit(u: TemperatureUnit): (r: TemperatureUnit)
    ensures r != u
  {
    if u == Celsius then Fahrenheit else Celsius
  }

  lemma ToggleTemperatureUnitTwice(u: TemperatureUnit)
    ensures ToggleTemperatureUnit(ToggleTemperatureUnit(u)) == u
  {
  }

  /** `prev === '12hr' ? '24hr' : '12hr'`. */
  function ToggleTimeFormat(prev: string): (r: string)
    ensures r == TwelveHour || r == TwentyFourHour
    ensures r == TwentyFourHour <==> prev == TwelveHour
  {
    if prev == TwelveHour then TwentyFourHour else TwelveHour
  }

  /** Toggling twice restores exactly the two recognised formats; any other
      saved text becomes "12hr" after one toggle. */
  lemma ToggleTimeFormatTwice(f: string)
    ensures ToggleTimeFormat(ToggleTimeFormat(f)) == f <==> f == TwelveHour || f == TwentyFourHour
  {
  }

  /** The saved unit is adopted only when it is exactly one of the two unit names. */
  function LoadTemperatureUnit(saved: Option<string>): (u: TemperatureUnit)
    ensures u == Fahrenheit <==> saved == Some("fahrenheit")
    ensures u == Celsius <==> saved != Some("fahrenheit")
  {
    if saved.Some? && saved.value != "" && (saved.value == "celsius" || saved.value == "fahrenheit") then
      (if saved.value == "celsius" then Celsius else Fahrenheit)
    else DefaultTemperatureUnit
  }

  /** Any non-empty saved clock format is adopted as it is. */
  function LoadTimeFormat(saved: Option<string>): (f: string)
    ensures saved.Some? && saved.value != "" ==> f == saved.value
    ensures saved.None? || saved.value == "" ==> f == DefaultTimeFormat
  {
    if saved.Some? && saved.value != "" then saved.value else DefaultTimeFormat
  }

  /** A temperature expressed in another unit, exactly. */
  function InUnit(temp: real, from: TemperatureUnit, to: TemperatureUnit): real
  {
    if from == to then temp
    else if from == Fahrenheit then (temp - 32.0) * 5.0 / 9.0
    else temp * 9.0 / 5.0 + 32.0
  }

  /** `convertTemperature` for the unit on display: the source temperature in
      the display unit, rounded like `Math.round`. */
  function ConvertTemperature(display: TemperatureUnit, temp: real, fromUnit: TemperatureUnit := Fahrenheit): (r: int)
    ensures r as real - 0.5 <= InUnit(temp, fromUnit, display) < r as real + 0.5
    ensures display == fromUnit ==> r == Round(temp)
  {
    if display == fromUnit then Round(temp)
    else if fromUnit == Fahrenheit then Round((temp - 32.0) * (5.0 / 9.0))
    else Round((temp * 9.0 / 5.0) + 32.0)
  }

  /** Freezing and boiling points convert both ways. */
  lemma FixedPoints()
    ensures ConvertTemperature(Celsius, 32.0) == 0
    ensures ConvertTemperature(Celsius, 212.0) == 100
    ensures ConvertTemperature(Fahrenheit, 0.0, Celsius) == 32
    ensures ConvertTemperature(Fahrenheit, 100.0, Celsius) == 212
  {
    RoundUnique((212.0 - 32.0) * (5.0 / 9.0), 100);
    RoundUnique(100.0 * 9.0 / 5.0 + 32.0, 212);
  }

  /** A whole Celsius temperature survives a trip to Fahrenheit and back:
      the Fahrenheit rounding error, scaled by 5/9, stays below half a degree. */
  lemma CelsiusRoundTrip(c: int)
    ensures ConvertTemperature(Celsius, ConvertTemperature(Fahrenheit, c as real, Celsius) as real) == c
  {
    var f := ConvertTemperature(Fahrenheit, c as real, Celsius);
    var back := (f as real - 32.0) * (5.0 / 9.0);
    assert -0.5 <= f as real - (c as real * 9.0 / 5.0 + 32.0) <= 0.5;
    assert back - c as real == (f as real - (c as real * 9.0 / 5.0 + 32.0)) * (5.0 / 9.0);
    RoundUnique(back, c);
  }

  /** A warmer reading never converts to a colder one. */
  lemma ConvertMonotone(display: TemperatureUnit, fromUnit: TemperatureUnit, t1: real, t2: real)
    requires t1 <= t2
    ensures ConvertTemperature(display, t1, fromUnit) <= ConvertTemperature(display, t2, fromUnit)
  {
    if display == fromUnit {
      RoundMonotone(t1, t2);
    } else if fromUnit == Fahrenheit {
      RoundMonotone((t1 - 32.0) * (5.0 / 9.0), (t2 - 32.0) * (5.0 / 9.0));
    } else {
      RoundMonotone((t1 * 9.0 / 5.0) + 32.0, (t2 * 9.0 / 5.0) + 32.0);
    }
  }

  function DigitChar(d: nat): (c: char)
    requires d < 10
    ensures IsDigit(c) && c as int - '0' as int == d
  {
    ('0' as int + d) as char
  }

  /** Decimal digits of a natural number, most significant first. */
  function NatToString(n: nat): (s: string)
    ensures |s| > 0 && AllDigits(s)
  {
    if n < 10 then [DigitChar(n)] else NatToString(n / 10) + [DigitChar(n % 10)]
  }

  /** The text `${n}` gives for an integral number. */
  function IntToString(n: int): (s: string)
    ensures |s| > 0
  {
    if n < 0 then "-" + NatToString(-n) else NatToString(n)
  }

  /** The value of a string of decimal digits. */
  function DigitsValue(s: string): nat
    requires AllDigits(s)
  {
    if |s| == 0 then 0 else 10 * DigitsValue(s[..|s| - 1]) + (s[|s| - 1] as int - '0' as int)
  }

  lemma {:induction false} DigitsRoundTrip(n: nat)
    ensures DigitsValue(NatToString(n)) == n
  {
    if n >= 10 {
      var s := NatToString(n);
      DigitsRoundTrip(n / 10);
      assert s[..|s| - 1] == NatToString(n / 10);
    }
  }

  /** Reads back an optionally negative decimal integer. */
  function ParseInt(s: string): Option<int>
  {
    if |s| > 1 && s[0] == '-' && AllDigits(s[1..]) then Some(0 - DigitsValue(s[1..]) as int)
    else if |s| > 0 && AllDigits(s) then Some(DigitsValue(s))
    else None
  }

  lemma IntRoundTrip(n: int)
    ensures ParseInt(IntToString(n)) == Some(n)
  {
    if n < 0 {
      DigitsRoundTrip(-n);
      assert IntToString(n)[1..] == NatToString(-n);
    } else {
      DigitsRoundTrip(n);
    }
  }

  function UnitSuffix(u: TemperatureUnit): string
  {
    if u == Celsius then "°C" else "°F"
  }

  /** `formatTemperature`: the converted number followed by the display unit's symbol. */
  function FormatTemperature(display: TemperatureUnit, temp: real, fromUnit: TemperatureUnit := Fahrenheit): (s: string)
    ensures |s| >= 3 && s[|s| - 2] == '°'
    ensures s[|s| - 1] == 'C' <==> display == Celsius
    ensures s[|s| - 1] == 'F' <==> display == Fahrenheit
  {
    IntToString(ConvertTemperature(display, temp, fromUnit)) + UnitSuffix(display)
  }

  /** Reads a formatted temperature back into its number and unit. */
  function ParseTemperature(s: string): Option<(int, TemperatureUnit)>
  {
    if |s| < 2 || s[|s| - 2] != '°' then None
    else
      var unit := if s[|s| - 1] == 'C' then Some(Celsius) else if s[|s| - 1] == 'F' then Some(Fahrenheit) else None;
      match (unit, ParseInt(s[..|s| - 2]))
      case (Some(u), Some(n)) => Some((n, u))
      case _ => None
  }

  /** The formatted text carries exactly the converted number and the display unit. */
  lemma FormatTemperatureParses(display: TemperatureUnit, temp: real, fromUnit: TemperatureUnit)
    ensures ParseTemperature(FormatTemperature(display, temp, fromUnit)) ==
      Some((ConvertTemperature(display, temp, fromUnit), display))
  {
    var n := ConvertTemperature(display, temp, fromUnit);
    var s := FormatTemperature(display, temp, fromUnit);
    assert s[..|s| - 2] == IntToString(n);
    IntRoundTrip(n);
  }
}

=== FILE: wrappers.dfy ===
/** The optional-value and outcome datatypes the other modules share. */
module Wrappers {

  /** A value that may be absent: a missing JSON field, `undefined`, or a `null` result. */
  datatype Option<+T> = None | Some(value: T)

  /** The outcome of a step that can throw: the value, or the error message it throws. */
  datatype Result<+T> = Ok(value: T) | Err(message: string)
}

=== FILE: zip.dfy ===
/** The US ZIP test `/^\d{5}(-\d{4})?$/` applied to the trimmed location text,
    which decides whether the geocoder retries with ", USA" appended. */
module Zip {
  import opened Text

  /** The characters `String.prototype.trim` removes: ECMAScript WhiteSpace and LineTerminator. */
  predicate IsTrimmable(c: char)
  {
    || c == ' ' || c == '\t' || c == '\n' || c == '\r'
    || c as int == 0x0B || c as int == 0x0C || c as int == 0xA0 || c as int == 0x1680
    || (0x2000 <= c as int <= 0x200A)
    || c as int == 0x2028 || c as int == 0x2029 || c as int == 0x202F || c as int == 0x205F
    || c as int == 0x3000 || c as int == 0xFEFF
  }

  predicate AllTrimmable(s: string)
  {
    forall k :: 0 <= k < |s| ==> IsTrimmable(s[k])
  }

  /** Index of the first character `trim` keeps. */
  function TrimStart(s: string, i: nat): (j: nat)
    requires i <= |s|
    ensures i <= j <= |s|
    ensures AllTrimmable(s[i..j])
    ensures j < |s| ==> !IsTrimmable(s[j])
    decreases |s| - i
  {
    if i < |s| && IsTrimmable(s[i]) then TrimStart(s, i + 1) else i
  }

  /** One past the index of the last character `trim` keeps. */
  function TrimEnd(s: string, lo: nat, j: nat): (e: nat)
    requires lo <= j <= |s|
    ensures lo <= e <= j
    ensures AllTrimmable(s[e..j])
    ensures e > lo ==> !IsTrimmable(s[e - 1])
    decreases j
  {
    if j > lo && IsTrimmable(s[j - 1]) then
      var e := TrimEnd(s, lo, j - 1);
      assert s[e..j] == s[e..j - 1] + [s[j - 1]];
      e
    else j
  }

  /** `s.trim()`: the text between the leading and the trailing whitespace. */
  function Trim(s: string): (t: string)
    ensures |t| <= |s|
    ensures |t| > 0 ==> !IsTrimmable(t[0]) && !IsTrimmable(t[|t| - 1])
  {
    var a := TrimStart(s, 0);
    s[a..TrimEnd(s, a, |s|)]
  }

  /** The trimmed text is a slice of the input with only whitespace outside it. */
  lemma TrimIsSlice(s: string) returns (a: nat, b: nat)
    ensures a <= b <= |s| && Trim(s) == s[a..b]
    ensures AllTrimmable(s[..a]) && AllTrimmable(s[b..])
  {
    a := TrimStart(s, 0);
    b := TrimEnd(s, a, |s|);
    assert s[..a] == s[0..a];
    assert s[b..] == s[b..|s|];
  }

  /** `/^\d{5}(-\d{4})?$/` on a whole string (`\d` is ASCII digits only). */
  predicate ZipShape(t: string)
  {
    || (|t| == 5 && AllDigits(t))
    || (|t| == 10 && AllDigits(t[..5]) && t[5] == '-' && AllDigits(t[6..]))
  }

  /** The test on line 66: the trimmed location is a five- or nine-digit ZIP. */
  function IsUsZip(location: string): (r: bool)
    ensures r ==> |Trim(location)| in {5, 10} && AllDigits(Trim(location)[..5])
    ensures r && |Trim(location)| == 10 ==> Trim(location)[5] == '-' && AllDigits(Trim(location)[6..])
  {
    ZipShape(Trim(location))
  }

  /** A ZIP written out from its parts: five digits, and optionally a hyphen and four more. */
  function ZipText(five: string, plusFour: Option4): (t: string)
    requires |five| == 5 && AllDigits(five)
    requires plusFour.Four? ==> |plusFour.digits| == 4 && AllDigits(plusFour.digits)
    ensures ZipShape(t)
    ensures t[..5] == five
  {
    match plusFour
    case NoExtension => five
    case Four(d) =>
      var t := five + "-" + d;
      assert t[..5] == five && t[6..] == d;
      t
  }

  datatype Option4 = NoExtension | Four(digits: string)

  /** Every string of ZIP shape is the written form of its parts. */
  lemma ZipShapeParses(t: string)
    requires ZipShape(t)
    ensures |t| == 5 ==> t == ZipText(t, NoExtension)
    ensures |t| == 10 ==> t == ZipText(t[..5], Four(t[6..]))
  {
    if |t| == 10 {
      assert t == t[..5] + "-" + t[6..];
    }
  }

  /** Surrounding whitespace does not change the classification. */
  lemma {:induction false} PaddingIgnored(pad1: string, core: string, pad2: string)
    requires AllTrimmable(pad1) && AllTrimmable(pad2)
    requires |core| > 0 && !IsTrimmable(core[0]) && !IsTrimmable(core[|core| - 1])
    ensures Trim(pad1 + core + pad2) == core
  {
    var s := pad1 + core + pad2;
    TrimStartSkips(s, 0, |pad1|);
    assert s[|pad1|] == core[0];
    var a := TrimStart(s, 0);
    TrimEndSkips(s, a, |s|, |pad1| + |core|);
    assert s[|pad1| + |core| - 1] == core[|core| - 1];
    assert s[|pad1|..|pad1| + |core|] == core;
  }

  /** A location is a US ZIP exactly when the text inside its padding has the ZIP shape. */
  lemma PaddedZipIff(pad1: string, core: string, pad2: string)
    requires AllTrimmable(pad1) && AllTrimmable(pad2)
    requires |core| > 0 && !IsTrimmable(core[0]) && !IsTrimmable(core[|core| - 1])
    ensures IsUsZip(pad1 + core + pad2) <==> ZipShape(core)
  {
    PaddingIgnored(pad1, core, pad2);
  }

  lemma {:induction false} TrimStartSkips(s: string, i: nat, stop: nat)
    requires i <= stop < |s|
    requires forall k :: i <= k < stop ==> IsTrimmable(s[k])
    requires !IsTrimmable(s[stop])
    ensures TrimStart(s, i) == stop
    decreases stop - i
  {
    if i < stop {
      TrimStartSkips(s, i + 1, stop);
    }
  }

  lemma {:induction false} TrimEndSkips(s: string, lo: nat, j: nat, stop: nat)
    requires lo < stop <= j <= |s|
    requires forall k :: stop <= k < j ==> IsTrimmable(s[k])
    requires !IsTrimmable(s[stop - 1])
    ensures TrimEnd(s, lo, j) == stop
    decreases j
  {
    if stop < j {
      TrimEndSkips(s, lo, j - 1, stop);
    }
  }

  /** Worked case: a plain five-digit code qualifies. */
  lemma PlainZipAccepted()
    ensures IsUsZip("60540")
  {
    var t := "60540";
    PaddingIgnored("", t, "");
    assert "" + t + "" == t;
    assert AllDigits(t) by {
      assert t[0] == '6' && t[1] == '0' && t[2] == '5' && t[3] == '4' && t[4] == '0';
    }
  }

  /** Worked case: a ZIP+4 code surrounded by whitespace qualifies. */
  lemma PaddedZipPlusFourAccepted()
    ensures IsUsZip(" 60540-1234\n")
  {
    var t := "60540-1234";
    PaddingIgnored(" ", t, "\n");
    assert " " + t + "\n" == " 60540-1234\n";
    ZipPlusFourShape();
  }

  lemma ZipPlusFourShape()
    ensures ZipShape("60540-1234")
  {
    var t := "60540-1234";
    assert t[..5] == "60540" && t[6..] == "1234";
    assert AllDigits("60540") by {
      assert "60540"[0] == '6' && "60540"[1] == '0' && "60540"[2] == '5' && "60540"[3] == '4' && "60540"[4] == '0';
    }
    assert AllDigits("1234") by {
      assert "1234"[0] == '1' && "1234"[1] == '2' && "1234"[2] == '3' && "1234"[3] == '4';
    }
  }

  /** A string with no whitespace at either end is its own trim. */
  lemma UnpaddedTrim(core: string)
    requires |core| > 0 && !IsTrimmable(core[0]) && !IsTrimmable(core[|core| - 1])
    ensures Trim(core) == core
  {
    PaddingIgnored("", core, "");
    assert "" + core + "" == core;
  }

  /** Worked case: a UK postcode does not qualify. */
  lemma PostcodeRejected()
    ensures !IsUsZip("SW1A 1AA")
  {
    UnpaddedTrim("SW1A 1AA");
  }

  /** Worked case: four digits are too few. */
  lemma ShortZipRejected()
    ensures !IsUsZip("6054")
  {
    UnpaddedTrim("6054");
  }

  /** Worked case: a three-digit extension does not qualify. */
  lemma TruncatedExtensionRejected()
    ensures !IsUsZip("60540-123")
  {
    UnpaddedTrim("60540-123");
  }
}
